=== FILE: README.md ===
# Objx container and digitizer, modelled in Dafny

Objx is a small textured-mesh tool. An object is a list of surfaces. Each
surface is an ordered list of five-component points (x, y, z, u, v), every
three of which form a triangle, plus one texture reference. An object also
has a location: the path of the archive it was last saved to, empty until
it is saved. This project models the part of the program with real logic:

- **the container codec** (`src/objx.cpp`, types in `src/objx.hpp`). `Objx::open`
  picks the `.mesh` entry out of an archive and runs its line parser.
  `Objx::save` stages texture files, writes the `.mesh` text and records the
  new location.
- **the digitizer** (`src/objx_builder.cpp`). `Objx::buildFromPNG` runs an
  event loop in which clicks over an image add points, right clicks toggle
  triangle selection, arrow keys pan the view, and Return saves.

Everything is pure functions over immutable datatypes.

| file | module | contents |
|---|---|---|
| `wrappers.dfy` | `Wrappers` | `Option`, `Result` |
| `text.dfy` | `Text` | whitespace words (stream extraction), `getline` lines, POSIX file name of a path |
| `model.dfy` | `Model` | `Point`, `Surface`, `Objx`, the default constructor, `addSurface` |
| `mesh.dfy` | `Mesh` | the `.mesh` line parser and writer, their round trip, a block-by-block reference reading |
| `archive.dfy` | `Archive` | `open` and `save` over a list of archive entries, and save-then-open |
| `builder.dfy` | `Builder` | the digitizer: hover, clicks, keys, frames, the session |

Modelling choices:

- **Archives.** A zip archive is a list of `Entry(name, data)`. `data` is
  `None` when the entry cannot be opened for reading.
- **Effects as inputs.** These external effects are parameters of `Save`:
  - the file dialog's answer;
  - the contents a texture copy produces, or its failure;
  - whether the zip file can be created.
- **Numbers.** Floats are exact reals. How a number is printed and read back
  is a parameter pair, `Mesh.NumText`. The round-trip lemmas assume, value by
  value, that each coordinate written prints as one word and reads back as
  itself (`Mesh.ShowsExactly`, `Mesh.PointRoundTrips`). `Mesh.ShowsAllSome`
  shows that any finite list of values has such a number text, and
  `Mesh.SurfacesRoundTripSome` that any list of surfaces does. So these
  hypotheses can always be met.
- **Builder input.** The builder receives each frame's pointer position and
  event list as input. The image is given by its pixel size, or `None` when
  it cannot be loaded.
- **Thrown exceptions.** Nothing in the program catches `std::out_of_range`,
  so a throw ends it. There are two:
  - A mesh line consisting of just `v` makes `line.substr(2)` throw. This is
    the outcome `Archive.Threw` of `Open`, carrying the index of that line.
  - `toString` calls `filename.substr(-5)` (objx.cpp:193). The -5 converts
    to the size type as 2^64 - 5, a position past the end of any name that
    fits in memory. So any entry name of five or more characters makes it
    throw. This is the outcome `SubstrThrew` of `Archive.Inspect`. Every
    successful save writes `map.mesh`, so printing after a successful save
    throws. The builder prints after Return, so its session records this
    as `aborted`: no later event or frame runs, and `BuildFromPng` returns
    `Terminated` instead of an object.

Behaviours of the code worth knowing:
- **Hover.** It takes the first stored point within the radius, not the
  nearest one.
- **Mesh entry.** It is the *last* readable entry whose name is longer than
  five characters and ends in `.mesh`.
- **Escape.** It ends the session and keeps the points.
- **Right click.** It toggles every triangle hit, not only the first.
- **Save.** It writes surfaces whatever their point count. It does not
  require a multiple of three.

## Model

Every row about what a save writes or what reopening it gives (`Archive.DecodeMeshText` through `Archive.SaveOpenFixpoint`, `Archive.InspectAfterSave`, `Builder.ReturnThenOpen` and the other `Builder.Return…` rows) is about the corrected `Archive.Save`, whose `map.mesh` entry holds the whole mesh text; the code as written may store less, as "## Findings" records.

| member | source | states |
|---|---|---|
| Model.NewObjx | src/objx.cpp:13-15 | a new object has exactly one surface, with no points and an empty texture, and has never been saved |
| Model.AddSurface | src/objx.cpp:97-99 | the surface is appended after the existing ones, which are kept in order; the location does not change |
| Text.Words | src/objx.cpp:85-87 | what `>>` extracts from a line is a sequence of non-empty words without whitespace |
| Text.WordsUnwords | src/objx.cpp:85-87 | extracting the words of space-joined words gives back exactly those words |
| Text.Lines | src/objx.cpp:75 | `getline` yields lines that contain no line break |
| Text.LinesUnlines | src/objx.cpp:75 | reading back lines written one per line, none containing a line break, gives the same lines |
| Text.UnlinesLines | src/objx.cpp:75 | writing back the lines read from a text that is empty or ends in a line break gives the same text |
| Text.BaseName | src/objx.cpp:125 | the file name of a path contains no `/` and is no longer than the path |
| Text.BaseNameSuffix | src/objx.cpp:125 | the file name is the part of the path after its last `/` |
| Text.ExternalIffNotBare | src/objx.cpp:129 | a texture counts as external (absolute, or with a parent directory) exactly when its file name differs from the path |
| Mesh.ClassifyBareV | src/objx.cpp:84-85 | the only line on which reading throws is the line `v` |
| Mesh.ShowsAllSome | src/objx.cpp:148 | any finite list of coordinate values has a number text under which each is written as one word and read back as itself |
| Mesh.PointRoundTripsSome | src/objx.cpp:148 | every point has a number text under which all five of its coordinates are written and read back exactly |
| Mesh.SurfacesRoundTripSome | src/objx.cpp:145-151 | for any list of surfaces there is a number text under which every coordinate written prints as one word and reads back as itself, so the round-trip hypotheses can be met for every input |
| Mesh.RunOutcome | src/objx.cpp:73-91 | the reading loop throws exactly when some line is `v`, and then at the first such line |
| Mesh.RunKeepsCommitted | src/objx.cpp:73-91 | surfaces already committed are kept as a prefix, and every committed surface has a point |
| Mesh.RunFinalBlank | src/objx.cpp:76-91 | a blank line at the end of the input changes nothing: the pending surface is committed after the loop whether or not a blank line closes it |
| Mesh.RunTextureOnly | src/objx.cpp:76-83 | a texture line followed at once by a blank line adds no surface and leaves a fresh pending surface |
| Mesh.RunTextureReplaced | src/objx.cpp:81-83 | of two texture lines in a row, the second alone names the surface |
| Mesh.Parse | src/objx.cpp:73-91 | reading succeeds exactly when no line is `v`; every surface read has a point; a failure names the first `v` line |
| Mesh.ParseFinalBlank | src/objx.cpp:73-91 | a file that lacks its final blank line reads exactly as the same file with it |
| Mesh.Blocks | src/objx.cpp:76-80 | splitting at blank lines gives exactly one block more than there are blank lines, and no block contains a blank line |
| Mesh.JoinBlocksOfBlocks | src/objx.cpp:76-80 | joining the blocks back with one blank line between each two gives the original lines |
| Mesh.BlocksOfJoin | src/objx.cpp:76-80 | splitting blocks joined with blank lines gives back the blocks, when none holds a blank line |
| Mesh.ParseByBlocks | src/objx.cpp:73-91 | the parser reads the surfaces of the blank-line-separated blocks in file order and drops those without points; each texture is the block's last `texture=` line |
| Mesh.Serialise | src/objx.cpp:145-151 | no written line is the line `v` that makes reading throw |
| Mesh.SerialisedNoNewline | src/objx.cpp:145-151 | every written line is free of line breaks when the texture file names are and the coordinates print as single words |
| Mesh.ReadShowPoint | src/objx.cpp:84-88 | a written vertex line reads back as exactly the point written, when its coordinates print exactly |
| Mesh.RoundTrip | src/objx.cpp:145-151 | reading the written lines gives the surfaces that have points, in order, each texture reduced to its file name, when every coordinate prints exactly |
| Archive.ScanMesh | src/objx.cpp:38-57 | the extraction loop ends holding the last readable entry with a mesh name, or none if there is no such entry |
| Archive.MeshEntry | src/objx.cpp:54-56 | the mesh entry is the last readable entry whose name is longer than 5 characters and ends in `.mesh` |
| Archive.Open | src/objx.cpp:16-95 | an unreadable archive or one without a mesh entry gives the default object with no location; otherwise the result throws exactly when decoding the mesh entry fails, at the same line, which is a `v` line; a successful decode gives the default surface followed by exactly the decoded surfaces, each with a point, located at the path |
| Archive.OpenByBlocks | src/objx.cpp:73-93 | an archive whose mesh entry has no `v` line opens as the default surface followed by the surfaces of the entry's blank-line separated blocks that have points, in file order, located at the path |
| Archive.Stage | src/objx.cpp:122-140 | staging succeeds exactly when every copy it attempts succeeds: the first surface with an external texture of each file name not yet staged; a failure names the first such texture whose copy fails; on success each staged name is copied from the first external texture with that name, names are distinct, and every external texture's file name is staged or was already |
| Archive.TextureEntries | src/objx.cpp:159-166 | the archive gets one entry per staged texture, except one named `map.mesh`, which the mesh file overwrites |
| Archive.Save | src/objx.cpp:112-172 | with no location and a cancelled dialog, the save fails and the object is unchanged; it fails with a copy error exactly when some attempted texture copy fails, naming the first one; on success the location becomes the old location (or the dialog's answer) plus `.Objx` and the last entry is `map.mesh` holding the written mesh text; surfaces never change |
| Archive.SaveEntries | src/objx.cpp:122-166 | a written archive has distinct entry names, texture entries only for external textures and with the copied contents, and an entry for every external texture's file name |
| Archive.DecodeMeshText | src/objx.cpp:143-151 | the text of the written mesh file reads back as the surfaces with points, textures reduced to file names, when the coordinates print exactly |
| Archive.SavedMeshEntry | src/objx.cpp:143-166 | when no external texture has a mesh file name, the extraction loop of `open` takes the written `map.mesh` entry from the saved archive, whatever order the export folder lists the entries in |
| Archive.ListingOrderDecides | src/objx.cpp:159-166 | when a copied texture has a mesh file name, listing it after `map.mesh` is a valid order of the written entries in which the extraction loop takes that texture instead of the mesh file |
| Archive.SaveThenOpen | src/objx.cpp:143-170 | in any listing order of the written entries, opening the archive a save wrote gives the default surface followed by the saved surfaces that have points, in order, textures reduced to file names, located at the written path, when the coordinates print exactly and no external texture has a mesh file name |
| Archive.OpenSaved | src/objx.cpp:143-170 | in any listing order of the written entries, opening the archive a save wrote gives the default surface followed by whatever the written mesh text decodes to, located at the written path, when no external texture has a mesh file name |
| Archive.SaveThenOpenOne | src/objx.cpp:143-170 | in any listing order, an object with one surface that has points, exactly printing coordinates and a texture without a mesh file name reopens as the default surface followed by that surface, texture reduced to its file name |
| Archive.SaveOpenFixpoint | src/objx.cpp:20-93 | an object in the shape opening produces, with exactly printing coordinates, reopens with exactly the same surfaces, located at the written path (the old location plus `.Objx`), in any listing order of the written entries |
| Archive.Resave | src/objx.cpp:154-170 | saving a saved object appends `.Objx` again and writes the same mesh entry |
| Archive.UnflushedMeshLost | src/objx.cpp:143-168 | as the code is written, a mesh file none of whose text the open stream has flushed is stored empty, and the archive reopens as the default surface alone, losing every surface with points |
| Archive.Substr | src/objx.cpp:193 | a negative position converts modulo 2^64, and `substr` then throws exactly when the converted position is past the end of the name |
| Archive.InspectFrom | src/objx.cpp:187-208 | the entry loop of `toString` throws exactly when some remaining entry name has five or more characters, at the first such entry; otherwise it prints nothing |
| Archive.Inspect | src/objx.cpp:174-213 | an unsaved object or an unreadable archive prints nothing; otherwise printing throws exactly when the archive holds a name of five or more characters |
| Archive.InspectAfterSave | src/objx.cpp:154-193 | printing an object right after a successful save throws, since the written archive holds `map.mesh` |
| Builder.HoverFrom | src/objx_builder.cpp:51-59 | the hover loop returns the first point from the start index within radius 10, or -1 if there is none |
| Builder.Hover | src/objx_builder.cpp:51-59 | the hovered point is the first in storage order within radius 10 of the pointer, or -1 when no point is that close |
| Builder.FrameHover | src/objx_builder.cpp:46-59 | the hover test of a frame uses the pointer position minus the pan offset: it yields the first point within radius 10 of that position, or -1 exactly when no point is that close |
| Builder.ClickPoint | src/objx_builder.cpp:83-87 | a new point lies at the clicked pixel at depth 0, with u and v scaling back to x and y by the image size |
| Builder.LeftClick | src/objx_builder.cpp:79-90 | one point is appended and the old points are kept: a copy of the hovered point, or the clicked pixel less the offset; one `false` flag is appended exactly when the point count becomes a multiple of 3 |
| Builder.ToggleFrom | src/objx_builder.cpp:92-101 | from the start index on, every complete triangle whose centroid plus offset is within 15 of the pointer has its flag flipped, when it has one |
| Builder.RightClick | src/objx_builder.cpp:91-102 | exactly the flags of triangles near the pointer are flipped; the points, offset and all else are unchanged |
| Builder.RightClickTwice | src/objx_builder.cpp:97-99 | two right clicks at the same position restore the selection |
| Builder.OnKey | src/objx_builder.cpp:64-78 | arrow keys move only the matching offset, by 10, and keep the session running; Escape ends the session and changes nothing else; Return ends the session, sets the location the save leaves (unchanged when cancelled, the target plus `.Objx` on success, the target on a failure), and ends the program exactly when printing the resulting archive throws; no key changes the points, texture or selection |
| Builder.Step | src/objx_builder.cpp:62-103 | an event adds exactly one point if it is a left click and none otherwise; the points are only appended to; the flags track the triangles; an ended session stays ended; only a Return can end the program, and an ended program stays ended |
| Builder.Events | src/objx_builder.cpp:61-103 | draining a frame's events only appends points, keeps the texture, and grows the selection by one flag per completed triangle; once the program has ended no event runs |
| Builder.EventsAddPerClick | src/objx_builder.cpp:61-103 | a frame adds exactly one point per left click among the events it handles: all of them, even after Escape or a cancelled save, unless a Return ends the program, and then exactly those up to and including that Return |
| Builder.DoFrame | src/objx_builder.cpp:45-103 | a frame only appends points and keeps the flags in step with the triangles |
| Builder.EventsRunning | src/objx_builder.cpp:61-75 | after a frame's events the loop still runs exactly when it ran before and no event closes the window, presses Escape or presses Return; once the program has ended the loop has too, and it ends only in a frame that presses Return |
| Builder.RunSession | src/objx_builder.cpp:45-144 | over a whole session, points are only appended and the texture never changes; the flags track the triangles |
| Builder.SessionRunning | src/objx_builder.cpp:44-75 | after a session's frames the loop still runs exactly when no event of any frame closes the window, presses Escape or presses Return; if the program ended during the session, some event pressed Return |
| Builder.Begin | src/objx_builder.cpp:152-154 | a session starts with one surface that has no points, the image path as texture, no location, no pan, and the selection left by the previous session |
| Builder.BuildFromPng | src/objx_builder.cpp:44-157 | an object returned has one surface textured with the image path, and the selection grows to its previous size plus one flag per triangle; an image that cannot be loaded gives an empty surface and the same selection; with a loaded image, no object is returned yet (`Unfinished`) exactly when no event of the frames given closes the window, presses Escape or presses Return; the program ends inside the session (`Terminated`) only if some event presses Return, so a session ended by closing the window or Escape alone returns the object |
| Builder.EscapeBuilds | src/objx_builder.cpp:63-65 | a session whose one frame presses Escape returns the object built |
| Builder.StepDigitized | src/objx_builder.cpp:80-88 | every point an event adds is a digitized pixel: whole-pixel x and y, z 0, u and v scaling back to x and y |
| Builder.EventsDigitized | src/objx_builder.cpp:79-90 | a frame's events keep every point a digitized pixel of the image |
| Builder.FrameDigitized | src/objx_builder.cpp:45-103 | a frame keeps every point a digitized pixel of the image |
| Builder.SessionDigitized | src/objx_builder.cpp:45-144 | all points of a session, created or copied, are digitized pixels of the image |
| Builder.BuildDigitized | src/objx_builder.cpp:152-157 | whatever the user does, a surface returned from a loaded image holds only digitized pixels of that image |
| Builder.ReturnSaves | src/objx_builder.cpp:71-74 | after a successful save on Return, the session has ended, the program ends in the print, the points and texture are unchanged, and the location is the written archive path |
| Builder.ReturnCancelled | src/objx_builder.cpp:71-74 | when the save dialog is cancelled, Return only ends the session: the print shows nothing and the frame's remaining events still run |
| Builder.ReturnFrameAborts | src/objx_builder.cpp:62-75 | a frame that presses Return with a successful save ends the program |
| Builder.SaveEndsBuild | src/objx_builder.cpp:45-157 | a session whose first frame presses Return with a successful save never returns an object from `buildFromPNG` |
| Builder.ReturnThenOpen | src/objx_builder.cpp:71-73 | in any listing order of its entries, the archive a successful Return writes opens as the default surface followed by the built surface, its texture reduced to the image file name, when the coordinates print exactly and the image's file name is not a mesh name |

## Left out

- Zip and filesystem I/O are replaced by lists of entries. This covers extraction to `assets/temp_extract`, the export folder `assets/export_temp`, `fs::copy_file` and `fs::remove_all`. Leftover files from an earlier save in the export folder are not modelled.
- Archive.Save: the model puts the texture entries first, in staging order, and `map.mesh` last. The source adds whatever `directory_iterator` lists, in an unspecified order. The save-then-open lemmas take any order of the written entries (`Archive.Reordered`) instead of relying on this one.
- Archive.Save: the model takes the `map.mesh` entry to hold the whole mesh text, which is what the code evidently intends. As written it may hold only what the unflushed stream has passed on; see "## Findings" and `Archive.SaveAsWritten`.
- Archive.Save: the result of `zip_close` is ignored, and the model, like the source, reports success once the archive was created.
- Archive.Save: a texture that fails to be added to the zip (objx.cpp:162-165) is silently skipped and the save still succeeds. The model always adds every entry.
- Archive.Open: an entry whose name contains a directory cannot be extracted to its path, so the `ifstream` fails to open. The model treats every readable entry as extracted.
- Archive.Inspect: its contract assumes every entry name is shorter than 2^64 - 5 characters (`Archive.NameFits`). Only such a name could make `substr(-5)` not throw, and no name that fits in memory is that long.
- Archive.InspectFrom: a null name from `zip_get_name` (objx.cpp:190) is skipped in the source. Every modelled entry has a name, so this case does not arise.
- Archive.InspectAfterSave: same name-length assumption as `Archive.Inspect`, for the texture file names the save stages.
- Builder.ReturnSaves: same name-length assumption, for the image's file name.
- Builder.SaveEndsBuild: same name-length assumption, for the image's file name.
- Mesh.ReadPoint: the model splits the text after `v ` into whitespace-separated words, reads the k-th coordinate as `num.read` of the k-th word, and reads 0 when there is no k-th word. The source's `>>` differs on short and malformed lines: it reads only the float prefix of the text (`1.5x` gives 1.5 and leaves `x` for the next extraction); a malformed word makes its extraction store 0 and fail the stream, and every later coordinate stays uninitialised; a missing word finds the stream already at its end, so the extraction does not run and that coordinate, like every later one, stays uninitialised (for `v 1 2`, z, u and v). The two agree on lines of five well-formed numbers, which is what the writer produces; short or malformed vertex lines are not modelled faithfully.
- Float formatting and parsing by `<<` and `>>` are the parameter `Mesh.NumText`. Single-precision rounding is not modelled; floats are exact reals. In particular, the u and v of a new point are exact quotients.
- Mesh.RoundTrip: holds only when every coordinate prints exactly (`Mesh.SurfacesRoundTrip`). `operator<<` prints six significant digits by default, so a coordinate such as u = 1/3 is written `0.333333` and reads back as a different number. The source does not round-trip such values, and the model does not claim it does.
- Mesh.ReadShowPoint: same exact-printing assumption as `Mesh.RoundTrip`.
- Mesh.SerialisedNoNewline: same exact-printing assumption as `Mesh.RoundTrip`. It is used to know that each coordinate prints as one word.
- Archive.DecodeMeshText: same exact-printing assumption as `Mesh.RoundTrip`.
- Archive.SaveThenOpen: same exact-printing assumption as `Mesh.RoundTrip`.
- Archive.SaveThenOpen: assumes no external texture has a mesh file name (`Archive.NoMeshTextures`). Such a texture, say `/x/skin.mesh`, is copied into the archive next to `map.mesh`. `open` takes the last readable mesh-named entry (objx.cpp:54-56), so in a listing order that puts it last, `open` parses the image bytes as mesh text (`Archive.ListingOrderDecides`); with the bytes `v` and a line break it throws.
- Archive.OpenSaved: same mesh-named-texture assumption as `Archive.SaveThenOpen`.
- Archive.SaveThenOpenOne: same exact-printing assumption as `Mesh.RoundTrip`.
- Archive.SaveThenOpenOne: same mesh-named-texture assumption as `Archive.SaveThenOpen`.
- Archive.SaveOpenFixpoint: same exact-printing assumption as `Mesh.RoundTrip`.
- Builder.ReturnThenOpen: same exact-printing assumption as `Mesh.RoundTrip`.
- Builder.ReturnThenOpen: same mesh-named-texture assumption as `Archive.SaveThenOpen`, for the image's file name.
- Builder.BuildFromPng: the frames are a finite input. When they run out while the loop still runs, the result is `Unfinished`; the source would go on polling frames and has not returned.
- Builder.OnKey: one `Saving` record answers every Return of a session, so a second Return after a cancelled dialog gets the same empty answer. The source opens the dialog again (objx.cpp:113-115), and the user may pick a file the second time.
- `sqrt(d) < r` is modelled as `d < r*r`, which is equivalent for non-negative values.
- SDL initialisation, window, texture, rendering and frame timing (objx_builder.cpp:21-39, 105-149) are not modelled. An image that fails to load, or an `SDL_Init` failure, is the input `None`, and then no session runs.
- Console output (`cout`, `cerr`) is not modelled.
- `getSurfaces`, `getEmplacement` and `setEmplacement` are field access on the datatypes.
- `src/main.cpp` (the OpenGL viewer), `src/file_dialog.cpp` (the file picker, here the dialog answer) and `src/metaUser.cpp`/`.hpp` (event record and replay threads) are not part of this model.

## Findings

| source | as written | input that shows it | evidently intended | confidence | as-written member | corrected member |
|---|---|---|---|---|---|---|
| src/objx.cpp:144-168 | the `ofstream out` writing `map.mesh` is neither flushed nor closed before `zip_close` reads the file, so the entry holds only what the stream buffer has passed on | saving an object with one surface holding one point: its mesh text is a few dozen characters, well under a stream buffer, so none of it has been flushed | the archive holds the whole mesh text (closing `out` before zipping), and reopening gives the saved surfaces back | medium, not executed; depends on the stream's buffer size and on when libzip reads the file | Archive.UnflushedMeshLost | Archive.SaveThenOpen |

=== FILE: archive.dfy ===
/** `Objx::open` and `Objx::save` over an abstract archive: a list of named
    entries instead of a zip file, and the file dialog, texture copying and
    archive creation as inputs instead of I/O. */
module Archive {
  import opened Wrappers
  import opened Text
  import opened Model
  import opened Mesh

  /** An archive entry; `data` is None when the entry cannot be opened for reading. */
  datatype Entry = Entry(name: string, data: Option<string>)

  const MeshSuffix: string := ".mesh"
  const MeshFileName: string := "map.mesh"
  const ArchiveExtension: string := ".Objx"

  /** A name longer than the suffix that ends in ".mesh" (".mesh" itself does not count). */
  predicate IsMeshName(name: string) {
    |name| > |MeshSuffix| && name[|name| - |MeshSuffix|..] == MeshSuffix
  }

  /** An entry the extraction loop takes as the mesh file: readable, with a mesh name. */
  predicate IsMeshCandidate(e: Entry) {
    e.data.Some? && IsMeshName(e.name)
  }

  // ---------------------------------------------------------------------------
  // Opening

  /** The extraction loop from entry i on, `found` being the mesh entry chosen
      so far: each readable mesh-named entry replaces the previous choice. */
  function ScanMesh(entries: seq<Entry>, i: nat, found: Option<nat>): (r: Option<nat>)
    requires i <= |entries|
    requires found.Some? ==> found.value < i && IsMeshCandidate(entries[found.value])
    requires found.Some? ==> forall j :: found.value < j < i ==> !IsMeshCandidate(entries[j])
    requires found.None? ==> forall j :: 0 <= j < i ==> !IsMeshCandidate(entries[j])
    ensures r.None? <==> forall j :: 0 <= j < |entries| ==> !IsMeshCandidate(entries[j])
    ensures r.Some? ==>
      && r.value < |entries|
      && IsMeshCandidate(entries[r.value])
      && forall j :: r.value < j < |entries| ==> !IsMeshCandidate(entries[j])
    decreases |entries| - i
  {
    if i == |entries| then found
    else ScanMesh(entries, i + 1, if IsMeshCandidate(entries[i]) then Some(i) else found)
  }

  /** The index of the mesh entry: the last readable one with a mesh name. */
  function MeshEntry(entries: seq<Entry>): (r: Option<nat>)
    ensures r.None? <==> forall j :: 0 <= j < |entries| ==> !IsMeshCandidate(entries[j])
    ensures r.Some? ==>
      && r.value < |entries|
      && IsMeshCandidate(entries[r.value])
      && forall j :: r.value < j < |entries| ==> !IsMeshCandidate(entries[j])
  {
    ScanMesh(entries, 0, None)
  }

  /** The surfaces a mesh file's text describes, read line by line. */
  function Decode(text: string, num: NumText): Result<seq<Surface>, MeshError> {
    Parse(Lines(text), num)
  }

  datatype OpenStatus = Loaded | ArchiveUnreadable | NoMeshEntry

  /** What opening returns: an object with the diagnostic that was reported,
      or the exception thrown while reading a line "v". */
  datatype Opened = Opened(obj: Objx, status: OpenStatus) | Threw(error: MeshError)

  /** Opens the archive found at `path` (None: it cannot be opened). */
  function Open(path: string, archive: Option<seq<Entry>>, num: NumText): (r: Opened)
    ensures archive.None? <==> r == Opened(NewObjx(), ArchiveUnreadable)
    ensures r.Opened? && r.status == NoMeshEntry <==>
      archive.Some? && forall j :: 0 <= j < |archive.value| ==> !IsMeshCandidate(archive.value[j])
    ensures r.Opened? && r.status != Loaded ==> r.obj == NewObjx()
    ensures r.Opened? && r.status == Loaded ==>
      && r.obj.location == path
      && |r.obj.surfaces| >= 1
      && r.obj.surfaces[0] == EmptySurface
      && AllHavePoints(r.obj.surfaces[1..])
    ensures r.Threw? ==>
      && archive.Some? && MeshEntry(archive.value).Some?
      && var lines := Lines(archive.value[MeshEntry(archive.value).value].data.value);
      && r.error.line < |lines| && lines[r.error.line] == "v"
    ensures archive.Some? && MeshEntry(archive.value).Some? ==>
      var d := Decode(archive.value[MeshEntry(archive.value).value].data.value, num);
      && (r.Threw? <==> d.Failure?)
      && (r.Threw? ==> r.error == d.error)
      && (d.Success? ==> r.Opened? && r.status == Loaded && r.obj.surfaces[1..] == d.value)
  {
    match archive
    case None => Opened(NewObjx(), ArchiveUnreadable)
    case Some(entries) =>
      match MeshEntry(entries)
      case None => Opened(NewObjx(), NoMeshEntry)
      case Some(i) =>
        match Decode(entries[i].data.value, num)
        case Failure(e) => Threw(e)
        case Success(committed) =>
          var o := NewObjx();
          assert ([EmptySurface] + committed)[1..] == committed;
          Opened(Objx(o.surfaces + committed, path), Loaded)
  }

  /** An archive whose mesh entry holds no line "v" opens as the default
      surface followed by the surfaces of that entry's blank-line separated
      blocks that have points, in order. */
  lemma OpenByBlocks(path: string, es: seq<Entry>, num: NumText)
    requires MeshEntry(es).Some?
    requires NoBareV(Lines(es[MeshEntry(es).value].data.value))
    ensures var lines := Lines(es[MeshEntry(es).value].data.value);
      Open(path, Some(es), num)
      == Opened(Objx([EmptySurface] + WithPoints(SurfacesOf(Blocks(lines), num)), path), Loaded)
  {
    ParseByBlocks(Lines(es[MeshEntry(es).value].data.value), num);
  }

  // ---------------------------------------------------------------------------
  // Saving

  /** What saving needs from outside: the answer of the save dialog (empty if
      cancelled; asked only when the object has no location), the contents of
      a texture file copied from a path (None if the copy fails), and whether
      the archive file can be created. */
  datatype SaveEnv = SaveEnv(dialog: string, fetch: string -> Option<string>, archiveOpens: bool)

  /** A texture copied into the export folder under its file name. */
  datatype Staged = Staged(name: string, source: string, data: string)

  /** A staged texture comes from an external texture of some surface, under
      that texture's file name, with the contents the copy produced. */
  predicate StagedFrom(st: Staged, ss: seq<Surface>, fetch: string -> Option<string>) {
    && IsExternal(st.source)
    && st.name == BaseName(st.source)
    && fetch(st.source) == Some(st.data)
    && exists i :: 0 <= i < |ss| && ss[i].texture == st.source
  }

  predicate DistinctNames(staged: seq<Staged>) {
    forall j, k :: 0 <= j < k < |staged| ==> staged[j].name != staged[k].name
  }

  /** Every external texture of ss has its file name staged or already copied. */
  predicate Covers(staged: seq<Staged>, copied: set<string>, ss: seq<Surface>) {
    forall i :: 0 <= i < |ss| && IsExternal(ss[i].texture) ==>
      || BaseName(ss[i].texture) in copied
      || exists k :: 0 <= k < |staged| && staged[k].name == BaseName(ss[i].texture)
  }

  /** Surface i's texture is copied by the staging loop: it is external, its
      file name is not in `copied`, and no earlier external texture has the
      same file name. */
  predicate CopiedAt(ss: seq<Surface>, copied: set<string>, i: int)
    requires 0 <= i < |ss|
  {
    && IsExternal(ss[i].texture)
    && BaseName(ss[i].texture) !in copied
    && forall j :: 0 <= j < i ==> !(IsExternal(ss[j].texture) && BaseName(ss[j].texture) == BaseName(ss[i].texture))
  }

  /** Every copy the staging loop makes succeeds. */
  predicate AllCopiesSucceed(ss: seq<Surface>, copied: set<string>, fetch: string -> Option<string>) {
    forall i :: 0 <= i < |ss| && CopiedAt(ss, copied, i) ==> fetch(ss[i].texture).Some?
  }

  /** t is the texture of the first copy that fails. */
  predicate FirstFailedCopy(ss: seq<Surface>, copied: set<string>, fetch: string -> Option<string>, t: string) {
    exists i :: 0 <= i < |ss| && CopiedAt(ss, copied, i) && ss[i].texture == t && fetch(t).None?
      && forall j :: 0 <= j < i && CopiedAt(ss, copied, j) ==> fetch(ss[j].texture).Some?
  }

  /** Each staged texture is one the staging loop copies. */
  predicate SourcesCopied(staged: seq<Staged>, ss: seq<Surface>, copied: set<string>) {
    forall k :: 0 <= k < |staged| ==>
      exists i :: 0 <= i < |ss| && CopiedAt(ss, copied, i) && staged[k].source == ss[i].texture
  }

  /** The names copied once the first surface has been looked at. */
  function CopiedAfter(s: Surface, copied: set<string>): set<string> {
    if IsExternal(s.texture) && BaseName(s.texture) !in copied then copied + {BaseName(s.texture)} else copied
  }

  lemma CopiedAtTail(ss: seq<Surface>, copied: set<string>, i: int)
    requires 0 < i < |ss|
    ensures CopiedAt(ss, copied, i) <==> CopiedAt(ss[1..], CopiedAfter(ss[0], copied), i - 1)
  {
    var tail := ss[1..];
    assert tail[i - 1] == ss[i];
    forall j | 0 <= j < i - 1 ensures tail[j] == ss[j + 1] { }
    if CopiedAt(tail, CopiedAfter(ss[0], copied), i - 1) {
      forall j | 0 <= j < i
        ensures !(IsExternal(ss[j].texture) && BaseName(ss[j].texture) == BaseName(ss[i].texture))
      {
        if j > 0 {
          assert tail[j - 1] == ss[j];
        }
      }
    }
  }

  lemma AllCopiesCons(ss: seq<Surface>, copied: set<string>, fetch: string -> Option<string>)
    requires |ss| > 0
    ensures AllCopiesSucceed(ss, copied, fetch) <==>
      && (CopiedAt(ss, copied, 0) ==> fetch(ss[0].texture).Some?)
      && AllCopiesSucceed(ss[1..], CopiedAfter(ss[0], copied), fetch)
  {
    var tail := ss[1..];
    var copied' := CopiedAfter(ss[0], copied);
    forall i | 0 < i < |ss| ensures CopiedAt(ss, copied, i) <==> CopiedAt(tail, copied', i - 1) {
      CopiedAtTail(ss, copied, i);
    }
    if AllCopiesSucceed(ss, copied, fetch) {
      forall i | 0 <= i < |tail| && CopiedAt(tail, copied', i) ensures fetch(tail[i].texture).Some? {
        assert tail[i] == ss[i + 1];
      }
    }
    if (CopiedAt(ss, copied, 0) ==> fetch(ss[0].texture).Some?) && AllCopiesSucceed(tail, copied', fetch) {
      forall i | 0 <= i < |ss| && CopiedAt(ss, copied, i) ensures fetch(ss[i].texture).Some? {
        if i > 0 {
          assert tail[i - 1] == ss[i];
        }
      }
    }
  }

  lemma FirstFailedCopyCons(ss: seq<Surface>, copied: set<string>, fetch: string -> Option<string>, t: string)
    requires |ss| > 0
    requires CopiedAt(ss, copied, 0) ==> fetch(ss[0].texture).Some?
    requires FirstFailedCopy(ss[1..], CopiedAfter(ss[0], copied), fetch, t)
    ensures FirstFailedCopy(ss, copied, fetch, t)
  {
    var tail := ss[1..];
    var copied' := CopiedAfter(ss[0], copied);
    var i :| 0 <= i < |tail| && CopiedAt(tail, copied', i) && tail[i].texture == t && fetch(t).None?
      && forall j :: 0 <= j < i && CopiedAt(tail, copied', j) ==> fetch(tail[j].texture).Some?;
    CopiedAtTail(ss, copied, i + 1);
    assert ss[i + 1] == tail[i];
    forall j | 0 <= j < i + 1 && CopiedAt(ss, copied, j) ensures fetch(ss[j].texture).Some? {
      if j > 0 {
        CopiedAtTail(ss, copied, j);
        assert ss[j] == tail[j - 1];
      }
    }
  }

  lemma SourcesCopiedCons(ss: seq<Surface>, copied: set<string>, staged: seq<Staged>, rest: seq<Staged>)
    requires |ss| > 0
    requires SourcesCopied(rest, ss[1..], CopiedAfter(ss[0], copied))
    requires staged == rest || (CopiedAt(ss, copied, 0) && |staged| > 0 && staged[1..] == rest && staged[0].source == ss[0].texture)
    ensures SourcesCopied(staged, ss, copied)
  {
    var tail := ss[1..];
    var copied' := CopiedAfter(ss[0], copied);
    forall k | 0 <= k < |staged|
      ensures exists i :: 0 <= i < |ss| && CopiedAt(ss, copied, i) && staged[k].source == ss[i].texture
    {
      var k' := if staged == rest then k else k - 1;
      if k' >= 0 && (staged == rest || k > 0) {
        assert staged[k] == rest[k'];
        var i :| 0 <= i < |tail| && CopiedAt(tail, copied', i) && rest[k'].source == tail[i].texture;
        CopiedAtTail(ss, copied, i + 1);
        assert ss[i + 1] == tail[i];
      } else {
        assert CopiedAt(ss, copied, 0);
      }
    }
  }

  /** All that staging promises about its result r. */
  predicate StageOutcome(ss: seq<Surface>, copied: set<string>, fetch: string -> Option<string>,
                      r: Result<seq<Staged>, string>) {
    && (r.Success? <==> AllCopiesSucceed(ss, copied, fetch))
    && (r.Success? ==> forall k :: 0 <= k < |r.value| ==>
          StagedFrom(r.value[k], ss, fetch) && r.value[k].name !in copied)
    && (r.Success? ==> DistinctNames(r.value))
    && (r.Success? ==> Covers(r.value, copied, ss))
    && (r.Success? ==> SourcesCopied(r.value, ss, copied))
    && (r.Failure? ==> FirstFailedCopy(ss, copied, fetch, r.error))
    && (r.Failure? ==>
          && IsExternal(r.error)
          && fetch(r.error).None?
          && exists i :: 0 <= i < |ss| && ss[i].texture == r.error)
  }

  /** Textures of surfaces ss staged in order, `copied` holding the file names
      already staged; the error is the texture whose copy failed. */
  function Stage(ss: seq<Surface>, copied: set<string>, fetch: string -> Option<string>): (r: Result<seq<Staged>, string>)
    ensures r.Success? <==> AllCopiesSucceed(ss, copied, fetch)
    ensures r.Success? ==> forall k :: 0 <= k < |r.value| ==>
      StagedFrom(r.value[k], ss, fetch) && r.value[k].name !in copied
    ensures r.Success? ==> DistinctNames(r.value)
    ensures r.Success? ==> Covers(r.value, copied, ss)
    ensures r.Success? ==> SourcesCopied(r.value, ss, copied)
    ensures r.Failure? ==> FirstFailedCopy(ss, copied, fetch, r.error)
    ensures r.Failure? ==>
      && IsExternal(r.error)
      && fetch(r.error).None?
      && exists i :: 0 <= i < |ss| && ss[i].texture == r.error
    decreases |ss|
  {
    if |ss| == 0 then Success([])
    else
      var t := ss[0].texture;
      var name := BaseName(t);
      if IsExternal(t) && name !in copied then
        match fetch(t)
        case None =>
          StageHeadFails(ss, copied, fetch);
          Failure(t)
        case Some(data) =>
          var tr := Stage(ss[1..], copied + {name}, fetch);
          var r := match tr
            case Failure(e) => Failure(e)
            case Success(rest) => Success([Staged(name, t, data)] + rest);
          StageCopy(ss, copied, fetch, data, tr, r);
          r
      else
        var r := Stage(ss[1..], copied, fetch);
        StageSkip(ss, copied, fetch, r);
        r
  }

  lemma StageHeadFails(ss: seq<Surface>, copied: set<string>, fetch: string -> Option<string>)
    requires |ss| > 0 && IsExternal(ss[0].texture) && BaseName(ss[0].texture) !in copied
    requires fetch(ss[0].texture).None?
    ensures StageOutcome(ss, copied, fetch, Failure(ss[0].texture))
  {
    assert CopiedAt(ss, copied, 0);
  }

  /** The first texture is copied, then the rest staged into tr. */
  lemma StageCopy(ss: seq<Surface>, copied: set<string>, fetch: string -> Option<string>, data: string,
                  tr: Result<seq<Staged>, string>, r: Result<seq<Staged>, string>)
    requires |ss| > 0 && IsExternal(ss[0].texture) && BaseName(ss[0].texture) !in copied
    requires fetch(ss[0].texture) == Some(data)
    requires StageOutcome(ss[1..], copied + {BaseName(ss[0].texture)}, fetch, tr)
    requires tr.Failure? ==> r == Failure(tr.error)
    requires tr.Success? ==> r == Success([Staged(BaseName(ss[0].texture), ss[0].texture, data)] + tr.value)
    ensures StageOutcome(ss, copied, fetch, r)
  {
    var tail := ss[1..];
    var name := BaseName(ss[0].texture);
    assert CopiedAt(ss, copied, 0);
    assert CopiedAfter(ss[0], copied) == copied + {name};
    AllCopiesCons(ss, copied, fetch);
    if tr.Failure? {
      FirstFailedCopyCons(ss, copied, fetch, tr.error);
      var i :| 0 <= i < |tail| && tail[i].texture == tr.error;
      assert ss[i + 1] == tail[i];
    } else {
      var rest := tr.value;
      var staged := r.value;
      assert staged[1..] == rest;
      SourcesCopiedCons(ss, copied, staged, rest);
      StageCons(ss, copied, fetch, staged, rest);
    }
  }

  /** The first texture is not copied, and the rest are staged into r. */
  lemma StageSkip(ss: seq<Surface>, copied: set<string>, fetch: string -> Option<string>,
                  r: Result<seq<Staged>, string>)
    requires |ss| > 0 && !(IsExternal(ss[0].texture) && BaseName(ss[0].texture) !in copied)
    requires StageOutcome(ss[1..], copied, fetch, r)
    ensures StageOutcome(ss, copied, fetch, r)
  {
    var tail := ss[1..];
    assert CopiedAfter(ss[0], copied) == copied;
    AllCopiesCons(ss, copied, fetch);
    if r.Failure? {
      FirstFailedCopyCons(ss, copied, fetch, r.error);
      var i :| 0 <= i < |tail| && tail[i].texture == r.error;
      assert ss[i + 1] == tail[i];
    } else {
      SourcesCopiedCons(ss, copied, r.value, r.value);
      forall k | 0 <= k < |r.value| ensures StagedFrom(r.value[k], ss, fetch) {
        assert StagedFrom(r.value[k], tail, fetch);
        var i :| 0 <= i < |tail| && tail[i].texture == r.value[k].source;
        assert ss[i + 1] == tail[i];
      }
      forall i | 0 <= i < |ss| && IsExternal(ss[i].texture)
        ensures || BaseName(ss[i].texture) in copied
                || exists k :: 0 <= k < |r.value| && r.value[k].name == BaseName(ss[i].texture)
      {
        if i > 0 {
          assert tail[i - 1] == ss[i];
        }
      }
    }
  }

  /** Staging the first texture and then the rest keeps the staging properties. */
  lemma StageCons(ss: seq<Surface>, copied: set<string>, fetch: string -> Option<string>,
                  r: seq<Staged>, rest: seq<Staged>)
    requires |ss| > 0 && |r| > 0 && r[1..] == rest
    requires r[0] == Staged(BaseName(ss[0].texture), ss[0].texture, r[0].data)
    requires IsExternal(ss[0].texture) && BaseName(ss[0].texture) !in copied
    requires fetch(ss[0].texture) == Some(r[0].data)
    requires forall k :: 0 <= k < |rest| ==>
      StagedFrom(rest[k], ss[1..], fetch) && rest[k].name !in copied + {r[0].name}
    requires DistinctNames(rest)
    requires Covers(rest, copied + {r[0].name}, ss[1..])
    ensures forall k :: 0 <= k < |r| ==> StagedFrom(r[k], ss, fetch) && r[k].name !in copied
    ensures DistinctNames(r)
    ensures Covers(r, copied, ss)
  {
    StageConsFrom(ss, copied, fetch, r, rest);
    StageConsDistinct(copied, r, rest);
    StageConsCovers(ss, copied, r, rest);
  }

  lemma StageConsFrom(ss: seq<Surface>, copied: set<string>, fetch: string -> Option<string>,
                      r: seq<Staged>, rest: seq<Staged>)
    requires |ss| > 0 && |r| > 0 && r[1..] == rest
    requires r[0] == Staged(BaseName(ss[0].texture), ss[0].texture, r[0].data)
    requires IsExternal(ss[0].texture) && BaseName(ss[0].texture) !in copied
    requires fetch(ss[0].texture) == Some(r[0].data)
    requires forall k :: 0 <= k < |rest| ==>
      StagedFrom(rest[k], ss[1..], fetch) && rest[k].name !in copied + {r[0].name}
    ensures forall k :: 0 <= k < |r| ==> StagedFrom(r[k], ss, fetch) && r[k].name !in copied
  {
    var tail := ss[1..];
    forall k | 0 <= k < |r| ensures StagedFrom(r[k], ss, fetch) && r[k].name !in copied {
      if k > 0 {
        assert r[k] == rest[k - 1];
        assert StagedFrom(rest[k - 1], tail, fetch);
        var i :| 0 <= i < |tail| && tail[i].texture == rest[k - 1].source;
        assert ss[i + 1].texture == r[k].source;
      } else {
        assert ss[0].texture == r[0].source;
      }
    }
  }

  lemma StageConsDistinct(copied: set<string>, r: seq<Staged>, rest: seq<Staged>)
    requires |r| > 0 && r[1..] == rest
    requires forall k :: 0 <= k < |rest| ==> rest[k].name !in copied + {r[0].name}
    requires DistinctNames(rest)
    ensures DistinctNames(r)
  {
    forall j, k | 0 <= j < k < |r| ensures r[j].name != r[k].name {
      assert r[k] == rest[k - 1];
      if j > 0 {
        assert r[j] == rest[j - 1];
      }
    }
  }

  lemma StageConsCovers(ss: seq<Surface>, copied: set<string>, r: seq<Staged>, rest: seq<Staged>)
    requires |ss| > 0 && |r| > 0 && r[1..] == rest
    requires r[0].name == BaseName(ss[0].texture)
    requires Covers(rest, copied + {r[0].name}, ss[1..])
    ensures Covers(r, copied, ss)
  {
    var tail := ss[1..];
    forall i | 0 <= i < |ss| && IsExternal(ss[i].texture)
      ensures || BaseName(ss[i].texture) in copied
              || exists k :: 0 <= k < |r| && r[k].name == BaseName(ss[i].texture)
    {
      if i == 0 {
        assert r[0].name == BaseName(ss[0].texture);
      } else {
        assert tail[i - 1] == ss[i];
        if BaseName(ss[i].texture) !in copied && BaseName(ss[i].texture) != r[0].name {
          var k :| 0 <= k < |rest| && rest[k].name == BaseName(tail[i - 1].texture);
          assert r[k + 1] == rest[k];
        }
      }
    }
  }

  /** The entry written for one of the staged textures. */
  predicate EntryOfStaged(e: Entry, staged: seq<Staged>) {
    exists j :: 0 <= j < |staged| && e == Entry(staged[j].name, Some(staged[j].data))
  }

  /** The archive entries of the staged textures: a texture named like the
      mesh file is overwritten by it and does not appear. */
  function TextureEntries(staged: seq<Staged>): (es: seq<Entry>)
    ensures forall k :: 0 <= k < |es| ==> es[k].name != MeshFileName
    ensures forall k :: 0 <= k < |es| ==> EntryOfStaged(es[k], staged)
    ensures forall j :: 0 <= j < |staged| && staged[j].name != MeshFileName ==> Entry(staged[j].name, Some(staged[j].data)) in es
    decreases |staged|
  {
    if |staged| == 0 then []
    else
      var rest := TextureEntries(staged[1..]);
      if staged[0].name == MeshFileName then rest
      else [Entry(staged[0].name, Some(staged[0].data))] + rest
  }

  /** The text of the mesh file written for surfaces ss. */
  function MeshText(ss: seq<Surface>, num: NumText): string {
    Unlines(Serialise(ss, num))
  }

  datatype SaveOutcome =
    | Cancelled
    | CopyFailed(texture: string)
    | ArchiveFailed
    | Written(path: string, entries: seq<Entry>)

  /** The object after saving and what the save did; the source's boolean
      result is `Succeeded()`. */
  datatype Saved = Saved(obj: Objx, outcome: SaveOutcome) {
    predicate Succeeded() {
      outcome.Written?
    }
  }

  /** The location a save writes to: the object's own, else the dialog's answer. */
  function Target(o: Objx, env: SaveEnv): string {
    if o.location == "" then env.dialog else o.location
  }

  function Save(o: Objx, env: SaveEnv, num: NumText): (r: Saved)
    ensures r.obj.surfaces == o.surfaces
    ensures r.outcome.Cancelled? <==> o.location == "" && env.dialog == ""
    ensures r.outcome.Cancelled? ==> r.obj == o
    ensures r.outcome.CopyFailed? || r.outcome.ArchiveFailed? ==> r.obj.location == Target(o, env)
    ensures r.outcome.CopyFailed? <==> !r.outcome.Cancelled? && !AllCopiesSucceed(o.surfaces, {}, env.fetch)
    ensures r.outcome.CopyFailed? ==> FirstFailedCopy(o.surfaces, {}, env.fetch, r.outcome.texture)
    ensures r.outcome.CopyFailed? ==>
      && IsExternal(r.outcome.texture)
      && env.fetch(r.outcome.texture).None?
      && exists i :: 0 <= i < |o.surfaces| && o.surfaces[i].texture == r.outcome.texture
    ensures r.outcome.ArchiveFailed? ==> !env.archiveOpens
    ensures r.Succeeded() ==>
      && env.archiveOpens
      && r.obj.location == Target(o, env) + ArchiveExtension
      && r.outcome.path == r.obj.location
    ensures r.Succeeded() ==>
      && |r.outcome.entries| >= 1
      && r.outcome.entries[|r.outcome.entries| - 1] == Entry(MeshFileName, Some(MeshText(o.surfaces, num)))
  {
    if o.location == "" && env.dialog == "" then Saved(o, Cancelled)
    else
      var target := Target(o, env);
      var o' := o.(location := target);
      match Stage(o.surfaces, {}, env.fetch)
      case Failure(t) => Saved(o', CopyFailed(t))
      case Success(staged) =>
        if !env.archiveOpens then Saved(o', ArchiveFailed)
        else
          var path := target + ArchiveExtension;
          var es := TextureEntries(staged) + [Entry(MeshFileName, Some(MeshText(o.surfaces, num)))];
          Saved(o'.(location := path), Written(path, es))
  }

  predicate DistinctEntryNames(es: seq<Entry>) {
    forall j, k :: 0 <= j < k < |es| ==> es[j].name != es[k].name
  }

  lemma {:induction false} TextureEntriesDistinct(staged: seq<Staged>)
    requires DistinctNames(staged)
    ensures DistinctEntryNames(TextureEntries(staged))
    decreases |staged|
  {
    if |staged| > 0 {
      var tail := staged[1..];
      DistinctNamesTail(staged);
      TextureEntriesDistinct(tail);
      var rest := TextureEntries(tail);
      if staged[0].name != MeshFileName {
        forall k | 0 <= k < |rest| ensures rest[k].name != staged[0].name {
          assert EntryOfStaged(rest[k], tail);
          var j :| 0 <= j < |tail| && rest[k] == Entry(tail[j].name, Some(tail[j].data));
          assert tail[j] == staged[j + 1];
        }
        DistinctEntryNamesCons(Entry(staged[0].name, Some(staged[0].data)), rest);
      }
    }
  }

  lemma DistinctNamesTail(staged: seq<Staged>)
    requires |staged| > 0 && DistinctNames(staged)
    ensures DistinctNames(staged[1..])
  {
    forall j, k | 0 <= j < k < |staged[1..]| ensures staged[1..][j].name != staged[1..][k].name {
      assert staged[1..][j] == staged[j + 1] && staged[1..][k] == staged[k + 1];
    }
  }

  /** An entry named unlike every other keeps the names distinct. */
  lemma DistinctEntryNamesCons(e: Entry, rest: seq<Entry>)
    requires DistinctEntryNames(rest)
    requires forall k :: 0 <= k < |rest| ==> rest[k].name != e.name
    ensures DistinctEntryNames([e] + rest)
  {
    var es := [e] + rest;
    forall j, k | 0 <= j < k < |es| ensures es[j].name != es[k].name {
      assert es[k] == rest[k - 1];
      if j > 0 {
        assert es[j] == rest[j - 1];
      }
    }
  }

  /** Each entry holds the copied contents of an external texture of ss under
      that texture's file name, and none is named like the mesh file. */
  predicate TexturesOf(es: seq<Entry>, ss: seq<Surface>, fetch: string -> Option<string>) {
    forall k :: 0 <= k < |es| ==> es[k].name != MeshFileName && CopyOfTexture(es[k], ss, fetch)
  }

  /** e holds the copied contents of an external texture of ss under that
      texture's file name. */
  predicate CopyOfTexture(e: Entry, ss: seq<Surface>, fetch: string -> Option<string>) {
    exists i :: 0 <= i < |ss| && IsExternal(ss[i].texture)
      && e.name == BaseName(ss[i].texture) && e.data == fetch(ss[i].texture)
  }

  /** Every external texture of ss has an entry under its file name. */
  predicate NamesEveryTexture(es: seq<Entry>, ss: seq<Surface>) {
    forall i :: 0 <= i < |ss| && IsExternal(ss[i].texture) ==>
      exists k :: 0 <= k < |es| && es[k].name == BaseName(ss[i].texture)
  }

  lemma SaveWrites(o: Objx, env: SaveEnv, num: NumText)
    requires Save(o, env, num).Succeeded()
    ensures Stage(o.surfaces, {}, env.fetch).Success?
    ensures Save(o, env, num).outcome.entries
         == TextureEntries(Stage(o.surfaces, {}, env.fetch).value)
            + [Entry(MeshFileName, Some(MeshText(o.surfaces, num)))]
  {
  }

  lemma EntriesDistinct(staged: seq<Staged>, m: Entry)
    requires DistinctNames(staged) && m.name == MeshFileName
    ensures DistinctEntryNames(TextureEntries(staged) + [m])
  {
    var textures := TextureEntries(staged);
    var es := textures + [m];
    TextureEntriesDistinct(staged);
    forall j, k | 0 <= j < k < |es| ensures es[j].name != es[k].name {
      assert es[j] == textures[j];
      if k < |es| - 1 {
        assert es[k] == textures[k];
      }
    }
  }

  lemma EntriesFromTextures(staged: seq<Staged>, ss: seq<Surface>, fetch: string -> Option<string>)
    requires forall k :: 0 <= k < |staged| ==> StagedFrom(staged[k], ss, fetch)
    ensures TexturesOf(TextureEntries(staged), ss, fetch)
  {
    var textures := TextureEntries(staged);
    forall k | 0 <= k < |textures|
      ensures && textures[k].name != MeshFileName
              && exists i :: 0 <= i < |ss| && IsExternal(ss[i].texture)
                   && textures[k].name == BaseName(ss[i].texture)
                   && textures[k].data == fetch(ss[i].texture)
    {
      assert EntryOfStaged(textures[k], staged);
      var j :| 0 <= j < |staged| && textures[k] == Entry(staged[j].name, Some(staged[j].data));
      assert StagedFrom(staged[j], ss, fetch);
      var i :| 0 <= i < |ss| && ss[i].texture == staged[j].source;
    }
  }

  lemma EntriesCoverTextures(staged: seq<Staged>, ss: seq<Surface>, m: Entry)
    requires Covers(staged, {}, ss) && m.name == MeshFileName
    ensures NamesEveryTexture(TextureEntries(staged) + [m], ss)
  {
    var textures := TextureEntries(staged);
    var es := textures + [m];
    forall i | 0 <= i < |ss| && IsExternal(ss[i].texture)
      ensures exists k :: 0 <= k < |es| && es[k].name == BaseName(ss[i].texture)
    {
      var name := BaseName(ss[i].texture);
      if name == MeshFileName {
        assert es[|es| - 1].name == name;
      } else {
        var j :| 0 <= j < |staged| && staged[j].name == name;
        var e := Entry(staged[j].name, Some(staged[j].data));
        assert e in textures;
        var k :| 0 <= k < |textures| && textures[k] == e;
        assert es[k] == e;
      }
    }
  }

  /** A successful save writes, besides the mesh file, exactly one entry per
      distinct file name of the external textures: each holds the copied
      contents of a texture with that name, and none is missing unless it is
      named like the mesh file. */
  lemma SaveEntries(o: Objx, env: SaveEnv, num: NumText)
    requires Save(o, env, num).Succeeded()
    ensures var es := Save(o, env, num).outcome.entries;
      && DistinctEntryNames(es)
      && TexturesOf(es[..|es| - 1], o.surfaces, env.fetch)
      && NamesEveryTexture(es, o.surfaces)
  {
    SaveWrites(o, env, num);
    var staged := Stage(o.surfaces, {}, env.fetch).value;
    var m := Entry(MeshFileName, Some(MeshText(o.surfaces, num)));
    var es := Save(o, env, num).outcome.entries;
    EntriesDistinct(staged, m);
    EntriesFromTextures(staged, o.surfaces, env.fetch);
    assert es[..|es| - 1] == TextureEntries(staged);
    EntriesCoverTextures(staged, o.surfaces, m);
  }

  // ---------------------------------------------------------------------------
  // Saving then opening

  lemma MeshFileIsCandidate()
    ensures IsMeshName(MeshFileName)
  {
    assert MeshFileName[|MeshFileName| - |MeshSuffix|..] == MeshSuffix;
  }

  /** The mesh text written for ss reads back as the surfaces that survive
      archiving, when the texture file names hold no line break. */
  lemma DecodeMeshText(ss: seq<Surface>, num: NumText)
    requires SurfacesRoundTrip(num, ss)
    requires forall i :: 0 <= i < |ss| ==> NoNewline(BaseName(ss[i].texture))
    ensures Decode(MeshText(ss, num), num) == Success(Archived(ss))
  {
    SerialisedNoNewline(ss, num);
    LinesUnlines(Serialise(ss, num));
    RoundTrip(ss, num);
  }

  /** An archive whose mesh entry is a readable entry holding `text` opens as
      what that text decodes to. */
  lemma OpenMeshAt(path: string, es: seq<Entry>, text: string, v: seq<Surface>, num: NumText)
    requires MeshEntry(es).Some? && es[MeshEntry(es).value].data == Some(text)
    requires Decode(text, num) == Success(v)
    ensures Open(path, Some(es), num) == Opened(Objx([EmptySurface] + v, path), Loaded)
  {
  }

  /** No external texture of ss has a file name the extraction loop takes for
      a mesh file, so no copied texture can stand in for "map.mesh". */
  predicate NoMeshTextures(ss: seq<Surface>) {
    forall i :: 0 <= i < |ss| && IsExternal(ss[i].texture) ==> !IsMeshName(BaseName(ss[i].texture))
  }

  /** es lists the entries a save wrote, in any order: the source adds them in
      the order the export folder is listed, which is unspecified. */
  predicate Reordered(es: seq<Entry>, w: SaveOutcome)
    requires w.Written?
  {
    multiset(es) == multiset(w.entries)
  }

  /** Of the entries a successful save writes, only "map.mesh" can be taken
      as the mesh file when no texture has a mesh name, whatever the order. */
  lemma SavedMeshEntry(o: Objx, env: SaveEnv, num: NumText, es: seq<Entry>)
    requires Save(o, env, num).Succeeded()
    requires NoMeshTextures(o.surfaces)
    requires Reordered(es, Save(o, env, num).outcome)
    ensures MeshEntry(es).Some?
    ensures es[MeshEntry(es).value] == Entry(MeshFileName, Some(MeshText(o.surfaces, num)))
  {
    var ws := Save(o, env, num).outcome.entries;
    SavedTexturesNotMesh(o, env, num);
    MeshFileIsCandidate();
    OnlyCandidate(ws, es);
  }

  /** In a successful save with no mesh-named texture, no entry but the last,
      "map.mesh", has a mesh name. */
  lemma SavedTexturesNotMesh(o: Objx, env: SaveEnv, num: NumText)
    requires Save(o, env, num).Succeeded()
    requires NoMeshTextures(o.surfaces)
    ensures var ws := Save(o, env, num).outcome.entries;
      forall n :: 0 <= n < |ws| - 1 ==> !IsMeshName(ws[n].name)
  {
    var ws := Save(o, env, num).outcome.entries;
    SaveEntries(o, env, num);
    forall n | 0 <= n < |ws| - 1 ensures !IsMeshName(ws[n].name) {
      TextureNotMesh(ws[..|ws| - 1], o.surfaces, env.fetch, n);
    }
  }

  lemma TextureNotMesh(es: seq<Entry>, ss: seq<Surface>, fetch: string -> Option<string>, n: int)
    requires TexturesOf(es, ss, fetch) && NoMeshTextures(ss)
    requires 0 <= n < |es|
    ensures !IsMeshName(es[n].name)
  {
    assert CopyOfTexture(es[n], ss, fetch);
    var i :| 0 <= i < |ss| && IsExternal(ss[i].texture)
      && es[n].name == BaseName(ss[i].texture) && es[n].data == fetch(ss[i].texture);
  }

  /** When the last entry is the only one with a mesh name, and a candidate,
      the extraction loop takes it in any order of the entries. */
  lemma OnlyCandidate(ws: seq<Entry>, es: seq<Entry>)
    requires |ws| > 0 && IsMeshCandidate(ws[|ws| - 1])
    requires forall n :: 0 <= n < |ws| - 1 ==> !IsMeshName(ws[n].name)
    requires multiset(es) == multiset(ws)
    ensures MeshEntry(es).Some? && es[MeshEntry(es).value] == ws[|ws| - 1]
  {
    var m := ws[|ws| - 1];
    assert m in multiset(es);
    var j :| 0 <= j < |es| && es[j] == m;
    assert IsMeshCandidate(es[j]);
    var e := es[MeshEntry(es).value];
    assert e in multiset(ws);
    var n :| 0 <= n < |ws| && ws[n] == e;
  }

  /** Without that hypothesis the listing order decides what opens: a texture
      entry with a mesh name listed after "map.mesh" is the one opening reads. */
  lemma ListingOrderDecides(o: Objx, env: SaveEnv, num: NumText, k: nat)
    requires Save(o, env, num).Succeeded()
    requires var ws := Save(o, env, num).outcome.entries; k < |ws| - 1 && IsMeshName(ws[k].name)
    ensures var ws := Save(o, env, num).outcome.entries;
      var es := ws[..k] + ws[k + 1..] + [ws[k]];
      && Reordered(es, Save(o, env, num).outcome)
      && MeshEntry(es) == Some(|es| - 1)
      && es[|es| - 1] == ws[k] && ws[k].name != MeshFileName
  {
    var ws := Save(o, env, num).outcome.entries;
    SavedTextureReadable(o, env, num, k);
    MoveLast(ws, k);
  }

  /** A texture entry a save writes is readable and not named "map.mesh". */
  lemma SavedTextureReadable(o: Objx, env: SaveEnv, num: NumText, k: nat)
    requires Save(o, env, num).Succeeded()
    requires k < |Save(o, env, num).outcome.entries| - 1
    ensures var ws := Save(o, env, num).outcome.entries;
      ws[k].data.Some? && ws[k].name != MeshFileName
  {
    SaveWrites(o, env, num);
    var staged := Stage(o.surfaces, {}, env.fetch).value;
    var textures := TextureEntries(staged);
    assert Save(o, env, num).outcome.entries[k] == textures[k];
    assert EntryOfStaged(textures[k], staged);
  }

  /** Moving a readable mesh-named entry to the end reorders the entries and
      makes it the one the extraction loop takes. */
  lemma MoveLast(ws: seq<Entry>, k: nat)
    requires k < |ws| && IsMeshCandidate(ws[k])
    ensures var es := ws[..k] + ws[k + 1..] + [ws[k]];
      multiset(es) == multiset(ws) && MeshEntry(es) == Some(|es| - 1) && es[|es| - 1] == ws[k]
  {
    var es := ws[..k] + ws[k + 1..] + [ws[k]];
    assert ws == ws[..k] + [ws[k]] + ws[k + 1..];
    assert IsMeshCandidate(es[|es| - 1]);
  }

  /** Opening what a save wrote gives the default empty surface followed by
      the saved surfaces that have points, in order, each texture reduced to
      its file name, located at the written archive, whatever the order the
      entries are listed in. */
  lemma SaveThenOpen(o: Objx, env: SaveEnv, num: NumText, es: seq<Entry>)
    requires SurfacesRoundTrip(num, o.surfaces)
    requires forall i :: 0 <= i < |o.surfaces| ==> NoNewline(BaseName(o.surfaces[i].texture))
    requires NoMeshTextures(o.surfaces)
    requires Save(o, env, num).Succeeded()
    requires Reordered(es, Save(o, env, num).outcome)
    ensures var w := Save(o, env, num).outcome;
      Open(w.path, Some(es), num) == Opened(Objx([EmptySurface] + Archived(o.surfaces), w.path), Loaded)
  {
    DecodeMeshText(o.surfaces, num);
    OpenSaved(o, env, num, Archived(o.surfaces), es);
  }

  /** What a save wrote opens as its mesh text decodes, in any listing order. */
  lemma OpenSaved(o: Objx, env: SaveEnv, num: NumText, v: seq<Surface>, es: seq<Entry>)
    requires Save(o, env, num).Succeeded()
    requires NoMeshTextures(o.surfaces)
    requires Reordered(es, Save(o, env, num).outcome)
    requires Decode(MeshText(o.surfaces, num), num) == Success(v)
    ensures var w := Save(o, env, num).outcome;
      Open(w.path, Some(es), num) == Opened(Objx([EmptySurface] + v, w.path), Loaded)
  {
    var w := Save(o, env, num).outcome;
    SavedMeshEntry(o, env, num, es);
    OpenMeshAt(w.path, es, MeshText(o.surfaces, num), v, num);
  }

  /** The one-surface case: an object with a single surface that has points
      reopens as the default surface followed by that surface, its texture
      reduced to the file name. */
  lemma SaveThenOpenOne(o: Objx, env: SaveEnv, num: NumText, es: seq<Entry>)
    requires |o.surfaces| == 1
    requires PointsRoundTrip(num, o.surfaces[0].points)
    requires |o.surfaces[0].points| > 0 && NoNewline(BaseName(o.surfaces[0].texture))
    requires NoMeshTextures(o.surfaces)
    requires Save(o, env, num).Succeeded()
    requires Reordered(es, Save(o, env, num).outcome)
    ensures var w := Save(o, env, num).outcome;
      Open(w.path, Some(es), num) == Opened(Objx([EmptySurface, ForArchive(o.surfaces[0])], w.path), Loaded)
  {
    var v := [ForArchive(o.surfaces[0])];
    DecodeOnly(o.surfaces, num);
    OpenSaved(o, env, num, v, es);
    PairConcat(EmptySurface, ForArchive(o.surfaces[0]));
  }

  lemma DecodeOnly(ss: seq<Surface>, num: NumText)
    requires |ss| == 1
    requires PointsRoundTrip(num, ss[0].points)
    requires |ss[0].points| > 0 && NoNewline(BaseName(ss[0].texture))
    ensures Decode(MeshText(ss, num), num) == Success([ForArchive(ss[0])])
  {
    DecodeOne(ss[0], num);
    assert ss == [ss[0]];
  }

  /** The mesh text of one surface with points reads back as that surface,
      its texture reduced to the file name. */
  lemma DecodeOne(s: Surface, num: NumText)
    requires PointsRoundTrip(num, s.points)
    requires |s.points| > 0 && NoNewline(BaseName(s.texture))
    ensures Decode(MeshText([s], num), num) == Success([ForArchive(s)])
  {
    assert forall i :: 0 <= i < |[s]| ==> NoNewline(BaseName([s][i].texture));
    assert SurfacesRoundTrip(num, [s]);
    DecodeMeshText([s], num);
    ArchivedOne(s);
  }

  /** Surfaces in the shape opening produces, with bare-name textures, are
      kept unchanged by writing and reading back: the default surface is
      dropped for having no points and the same one is added again. */
  lemma ArchivedOfOpened(tail: seq<Surface>)
    requires AllHavePoints(tail)
    requires forall i :: 0 <= i < |tail| ==> NoSlash(tail[i].texture)
    ensures Archived([EmptySurface] + tail) == tail
  {
    var ss := [EmptySurface] + tail;
    ArchivedCons(ss);
    assert ss[1..] == tail;
    assert Archived([ss[0]]) == [] by {
      assert [ss[0]][1..] == [];
    }
    ArchivedKeeps(tail);
  }

  lemma {:induction false} ArchivedKeeps(ss: seq<Surface>)
    requires AllHavePoints(ss)
    requires forall i :: 0 <= i < |ss| ==> NoSlash(ss[i].texture)
    ensures Archived(ss) == ss
    decreases |ss|
  {
    if |ss| > 0 {
      BaseNameOfBare(ss[0].texture);
      assert ForArchive(ss[0]) == ss[0];
      ArchivedKeeps(ss[1..]);
      assert [ss[0]] + ss[1..] == ss;
    }
  }

  /** After one save and open, further cycles leave the surfaces unchanged:
      an object made of the default surface followed by surfaces with points
      and bare-name textures reopens exactly as it was saved. */
  lemma SaveOpenFixpoint(o: Objx, tail: seq<Surface>, env: SaveEnv, num: NumText, es: seq<Entry>)
    requires SurfacesRoundTrip(num, o.surfaces)
    requires o.surfaces == [EmptySurface] + tail
    requires AllHavePoints(tail)
    requires forall i :: 0 <= i < |tail| ==> NoSlash(tail[i].texture) && NoNewline(tail[i].texture)
    requires Save(o, env, num).Succeeded()
    requires Reordered(es, Save(o, env, num).outcome)
    ensures var w := Save(o, env, num).outcome;
      Open(w.path, Some(es), num) == Opened(Objx(o.surfaces, w.path), Loaded)
  {
    BareNamesNoNewline(o.surfaces, tail);
    BareNamesNotExternal(o.surfaces, tail);
    SaveThenOpen(o, env, num, es);
    ArchivedOfOpened(tail);
  }

  /** Bare-name textures are not external, so none is copied. */
  lemma BareNamesNotExternal(ss: seq<Surface>, tail: seq<Surface>)
    requires ss == [EmptySurface] + tail
    requires forall i :: 0 <= i < |tail| ==> NoSlash(tail[i].texture)
    ensures NoMeshTextures(ss)
  {
    forall i | 0 <= i < |ss| ensures !IsExternal(ss[i].texture) {
      if i > 0 {
        assert ss[i] == tail[i - 1];
      }
      BaseNameOfBare(ss[i].texture);
      ExternalIffNotBare(ss[i].texture);
    }
  }

  lemma BareNamesNoNewline(ss: seq<Surface>, tail: seq<Surface>)
    requires ss == [EmptySurface] + tail
    requires forall i :: 0 <= i < |tail| ==> NoSlash(tail[i].texture) && NoNewline(tail[i].texture)
    ensures forall i :: 0 <= i < |ss| ==> NoNewline(BaseName(ss[i].texture))
  {
    forall i | 0 <= i < |ss| ensures NoNewline(BaseName(ss[i].texture)) {
      if i > 0 {
        assert ss[i] == tail[i - 1];
        BaseNameOfBare(ss[i].texture);
      }
    }
  }

  /** A successful save relocates the object to the archive and writes the
      mesh file last. */
  lemma SavedFacts(o: Objx, env: SaveEnv, num: NumText)
    requires Save(o, env, num).Succeeded()
    ensures Save(o, env, num).obj == o.(location := Target(o, env) + ArchiveExtension)
    ensures Last(Save(o, env, num).outcome.entries) == Entry(MeshFileName, Some(MeshText(o.surfaces, num)))
  {
  }

  /** Saving a saved object again writes the same mesh text to the same
      location with the extension appended once more. */
  lemma Resave(o: Objx, env: SaveEnv, env': SaveEnv, num: NumText)
    requires Save(o, env, num).Succeeded()
    requires Save(Save(o, env, num).obj, env', num).Succeeded()
    ensures var first := Save(o, env, num);
      var second := Save(first.obj, env', num);
      && second.obj.location == Target(o, env) + ArchiveExtension + ArchiveExtension
      && Last(second.outcome.entries) == Last(first.outcome.entries)
  {
    var o1 := o.(location := Target(o, env) + ArchiveExtension);
    SavedFacts(o, env, num);
    SavedFacts(o1, env', num);
    assert |o1.location| >= |ArchiveExtension|;
    assert Target(o1, env') == o1.location;
  }

  // ---------------------------------------------------------------------------
  // The mesh file as the save actually stores it

  /** `save` as written: the stream writing "map.mesh" is still open, and not
      flushed, when the archive is closed and reads the file, so the entry
      holds only the `flushed` characters the stream had passed on by then.
      Everything else is as in `Save`. */
  function SaveAsWritten(o: Objx, env: SaveEnv, num: NumText, flushed: nat): (r: Saved)
    ensures r.obj == Save(o, env, num).obj
    ensures r.Succeeded() <==> Save(o, env, num).Succeeded()
    ensures r.Succeeded() ==>
      var full := Save(o, env, num).outcome.entries;
      var text := MeshText(o.surfaces, num);
      && |r.outcome.entries| == |full|
      && r.outcome.entries[..|full| - 1] == full[..|full| - 1]
      && r.outcome.path == Save(o, env, num).outcome.path
      && exists n :: 0 <= n <= |text| && n <= flushed
           && Last(r.outcome.entries) == Entry(MeshFileName, Some(text[..n]))
  {
    var w := Save(o, env, num);
    if !w.Succeeded() then w
    else
      var text := MeshText(o.surfaces, num);
      var n := if flushed < |text| then flushed else |text|;
      Saved(w.obj, Written(w.outcome.path, ReplaceLast(w.outcome.entries, Entry(MeshFileName, Some(text[..n])))))
  }

  /** es with its last entry replaced by e. */
  function ReplaceLast(es: seq<Entry>, e: Entry): (r: seq<Entry>)
    requires |es| > 0
    ensures |r| == |es| && r[..|es| - 1] == es[..|es| - 1] && Last(r) == e
  {
    es[..|es| - 1] + [e]
  }

  /** A mesh file small enough that none of it has been flushed is stored
      empty: the archive the save reports as written reopens as the default
      surface alone, and every surface that had points is lost. */
  lemma UnflushedMeshLost(o: Objx, env: SaveEnv, num: NumText)
    requires SaveAsWritten(o, env, num, 0).Succeeded()
    ensures var w := SaveAsWritten(o, env, num, 0).outcome;
      Open(w.path, Some(w.entries), num) == Opened(Objx([EmptySurface], w.path), Loaded)
    ensures var w := SaveAsWritten(o, env, num, 0).outcome;
      Archived(o.surfaces) != [] ==>
        Open(w.path, Some(w.entries), num) != Opened(Objx([EmptySurface] + Archived(o.surfaces), w.path), Loaded)
  {
    var w := SaveAsWritten(o, env, num, 0).outcome;
    var text := MeshText(o.surfaces, num);
    assert text[..0] == "";
    OpenEmptyMesh(w.path, w.entries, num);
  }

  /** An archive whose last entry is an empty "map.mesh" opens as the default
      surface alone. */
  lemma OpenEmptyMesh(path: string, es: seq<Entry>, num: NumText)
    requires |es| > 0 && Last(es) == Entry(MeshFileName, Some(""))
    ensures Open(path, Some(es), num) == Opened(Objx([EmptySurface], path), Loaded)
  {
    MeshFileIsCandidate();
    assert IsMeshCandidate(es[|es| - 1]);
    assert MeshEntry(es) == Some(|es| - 1);
    assert Decode("", num) == Success([]);
    OpenMeshAt(path, es, "", [], num);
    assert [EmptySurface] + [] == [EmptySurface];
  }

  // ---------------------------------------------------------------------------
  // Printing an archive

  /** The largest value of the 64-bit unsigned size type. */
  const SizeMax: int := 0xFFFF_FFFF_FFFF_FFFF

  /** `name.substr(pos)` with an int position converted to the size type
      (modulo 2^64); it throws when that position is past the end. */
  function Substr(name: string, pos: int): (r: Option<string>)
    ensures pos < 0 && pos + SizeMax + 1 >= 0 ==> (r.None? <==> pos + SizeMax + 1 > |name|)
  {
    var p := pos % (SizeMax + 1);
    if p > |name| then None else Some(name[p..])
  }

  /** A name short enough to be held by a string: shorter than the largest
      size value less four. */
  predicate NameFits(name: string) {
    |name| < SizeMax - 4
  }

  predicate NamesFit(es: seq<Entry>) {
    forall j :: 0 <= j < |es| ==> NameFits(es[j].name)
  }

  /** What `toString` prints, or the name of the entry on which its
      `substr(-5)` throws. */
  datatype Inspected = Printed(text: string) | SubstrThrew(name: string)

  /** The entry loop of `toString` from entry i on: names shorter than five
      characters are skipped; on any other the suffix test runs first. */
  function InspectFrom(es: seq<Entry>, i: nat): (r: Inspected)
    requires i <= |es|
    ensures NamesFit(es) ==>
      (r.SubstrThrew? <==> exists j :: i <= j < |es| && |es[j].name| >= 5)
    ensures NamesFit(es) && r.SubstrThrew? ==>
      exists j :: i <= j < |es| && es[j].name == r.name && |r.name| >= 5
        && forall k :: i <= k < j ==> |es[k].name| < 5
    ensures NamesFit(es) && r.Printed? ==> r.text == ""
    decreases |es| - i
  {
    if i == |es| then Printed("")
    else
      var name := es[i].name;
      if |name| < 5 then InspectFrom(es, i + 1)
      else
        match Substr(name, -5)
        case None => SubstrThrew(name)
        case Some(suffix) =>
          if suffix == MeshSuffix || es[i].data.None? then InspectFrom(es, i + 1)
          else Printed(es[i].data.value)
  }

  /** `toString` on the object located at `location`, `archive` being what
      opening that path finds: an unsaved object or an unreadable archive
      prints nothing; otherwise the first entry of five or more characters
      makes it throw, since -5 converts to a position past any string's end. */
  function Inspect(location: string, archive: Option<seq<Entry>>): (r: Inspected)
    ensures location == "" || archive.None? ==> r == Printed("")
    ensures location != "" && archive.Some? && NamesFit(archive.value) ==>
      && (r.SubstrThrew? <==> exists j :: 0 <= j < |archive.value| && |archive.value[j].name| >= 5)
      && (r.Printed? ==> r.text == "")
  {
    if location == "" then Printed("")
    else
      match archive
      case None => Printed("")
      case Some(es) => InspectFrom(es, 0)
  }

  lemma TextureNamesFit(staged: seq<Staged>, ss: seq<Surface>, fetch: string -> Option<string>)
    requires forall k :: 0 <= k < |staged| ==> StagedFrom(staged[k], ss, fetch)
    requires forall i :: 0 <= i < |ss| ==> NameFits(BaseName(ss[i].texture))
    ensures NamesFit(TextureEntries(staged))
  {
    var textures := TextureEntries(staged);
    forall j | 0 <= j < |textures| ensures NameFits(textures[j].name) {
      assert EntryOfStaged(textures[j], staged);
      var k :| 0 <= k < |staged| && textures[j] == Entry(staged[k].name, Some(staged[k].data));
      assert StagedFrom(staged[k], ss, fetch);
      var i :| 0 <= i < |ss| && ss[i].texture == staged[k].source;
    }
  }

  /** The names a save writes fit in a string when the texture file names do. */
  lemma SaveNamesFit(o: Objx, env: SaveEnv, num: NumText)
    requires Save(o, env, num).Succeeded()
    requires forall i :: 0 <= i < |o.surfaces| ==> NameFits(BaseName(o.surfaces[i].texture))
    ensures NamesFit(Save(o, env, num).outcome.entries)
  {
    SaveWrites(o, env, num);
    var staged := Stage(o.surfaces, {}, env.fetch).value;
    var textures := TextureEntries(staged);
    var es := Save(o, env, num).outcome.entries;
    TextureNamesFit(staged, o.surfaces, env.fetch);
    assert es == textures + [Entry(MeshFileName, Some(MeshText(o.surfaces, num)))];
    forall j | 0 <= j < |es| ensures NameFits(es[j].name) {
      if j < |textures| {
        assert es[j] == textures[j];
      }
    }
  }

  /** Printing an archive a save has just written throws, when the texture
      file names fit in a string: the archive always holds "map.mesh". */
  lemma InspectAfterSave(o: Objx, env: SaveEnv, num: NumText)
    requires Save(o, env, num).Succeeded()
    requires forall i :: 0 <= i < |o.surfaces| ==> NameFits(BaseName(o.surfaces[i].texture))
    ensures var w := Save(o, env, num);
      Inspect(w.obj.location, Some(w.outcome.entries)).SubstrThrew?
  {
    var w := Save(o, env, num);
    var es := w.outcome.entries;
    SaveNamesFit(o, env, num);
    assert |es[|es| - 1].name| >= 5;
    assert w.obj.location != "";
  }

  function Last(es: seq<Entry>): Entry
    requires |es| > 0
  {
    es[|es| - 1]
  }
}

=== FILE: builder.dfy ===
/** The digitizer of `Objx::buildFromPNG`: an event-driven state machine that
    turns clicks over a source image into the points of one surface, with a
    per-triangle selection flag, a pan offset and a save key. Rendering, SDL
    and the frame clock are not modelled: each frame's pointer position and
    events are inputs. */
module Builder {
  import opened Wrappers
  import opened Model
  import opened Text
  import Mesh
  import Archive

  /** Radius, in pixels, of the hover test around a point. */
  const SelectionRadius: int := 10
  /** Radius, in pixels, of the right-click test around a triangle's centroid. */
  const TriangleRadius: int := 15
  /** Pixels the view moves per arrow-key press. */
  const PanStep: int := 10

  /** The pixel dimensions of the decoded source image. */
  datatype Image = Image(width: int, height: int) {
    predicate Decoded() {
      width > 0 && height > 0
    }
  }

  /** The session state: the points of the one surface being built, its
      texture (the image path) and the object's location, the selection flag
      of each triangle, the pan offset, whether the loop goes on, and whether
      an uncaught exception has ended the program. */
  datatype Session = Session(points: seq<Point>, texture: string, location: string,
                             selected: seq<bool>, offsetX: int, offsetY: int, running: bool,
                             aborted: bool) {
    /** The object the session is building. */
    function Obj(): Objx {
      Objx([Surface(points, texture)], location)
    }
  }

  datatype Key = Escape | ArrowLeft | ArrowRight | ArrowUp | ArrowDown | Return | OtherKey
  datatype Button = LeftButton | RightButton | OtherButton

  /** An input event; a button press carries the pointer position of the press. */
  datatype Event = QuitEvent | KeyDown(key: Key) | ButtonDown(button: Button, x: int, y: int) | OtherEvent

  datatype Pointer = Pointer(x: int, y: int)

  /** One frame: the pointer position sampled at its start, then the events
      drained during it. */
  datatype Frame = Frame(mouse: Pointer, events: seq<Event>)

  /** What a Return key press needs in order to save and then print: the
      save's inputs, and the archive opening a path finds, if any. */
  datatype Saving = Saving(env: Archive.SaveEnv, num: Mesh.NumText,
                           existing: string -> Option<seq<Archive.Entry>>)

  // ---------------------------------------------------------------------------
  // Hover

  /** p lies strictly within the selection radius of pixel (x, y). */
  predicate NearPoint(p: Point, x: int, y: int) {
    var dx := p.x - x as real;
    var dy := p.y - y as real;
    dx * dx + dy * dy < (SelectionRadius * SelectionRadius) as real
  }

  /** The hover loop from index i on. */
  function HoverFrom(points: seq<Point>, x: int, y: int, i: nat): (h: int)
    requires i <= |points|
    ensures h == -1 <==> forall j :: i <= j < |points| ==> !NearPoint(points[j], x, y)
    ensures h != -1 ==>
      && i <= h < |points|
      && NearPoint(points[h], x, y)
      && forall j :: i <= j < h ==> !NearPoint(points[j], x, y)
    decreases |points| - i
  {
    if i == |points| then -1
    else if NearPoint(points[i], x, y) then i
    else HoverFrom(points, x, y, i + 1)
  }

  /** The hovered point: the first, in storage order, near pixel (x, y) of
      the image, or -1 if there is none. */
  function Hover(points: seq<Point>, x: int, y: int): (h: int)
    ensures -1 <= h < |points|
    ensures h == -1 <==> forall j :: 0 <= j < |points| ==> !NearPoint(points[j], x, y)
    ensures h != -1 ==>
      && NearPoint(points[h], x, y)
      && forall j :: 0 <= j < h ==> !NearPoint(points[j], x, y)
  {
    HoverFrom(points, x, y, 0)
  }

  // ---------------------------------------------------------------------------
  // Left click

  /** The point created by a click at image pixel (x, y): depth 0, texture
      coordinates the pixel divided by the image size, not clamped. */
  function ClickPoint(x: int, y: int, img: Image): (p: Point)
    requires img.Decoded()
    ensures p.x == x as real && p.y == y as real && p.z == 0.0
    ensures p.u * img.width as real == p.x && p.v * img.height as real == p.y
  {
    Point(x as real, y as real, 0.0, x as real / img.width as real, y as real / img.height as real)
  }

  /** A left click at window pixel (px, py) with `hover` the frame's hovered point. */
  function LeftClick(s: Session, img: Image, hover: int, px: int, py: int): (r: Session)
    requires img.Decoded()
    requires -1 <= hover < |s.points|
    ensures |r.points| == |s.points| + 1 && r.points[..|s.points|] == s.points
    ensures hover != -1 ==> r.points[|s.points|] == s.points[hover]
    ensures hover == -1 ==> r.points[|s.points|] == ClickPoint(px - s.offsetX, py - s.offsetY, img)
    ensures r.selected == if |r.points| % 3 == 0 then s.selected + [false] else s.selected
    ensures r.(points := s.points, selected := s.selected) == s
  {
    var p := if hover != -1 then s.points[hover] else ClickPoint(px - s.offsetX, py - s.offsetY, img);
    var points := s.points + [p];
    s.(points := points, selected := if |points| % 3 == 0 then s.selected + [false] else s.selected)
  }

  // ---------------------------------------------------------------------------
  // Right click

  /** Triangle k (points 3k, 3k+1, 3k+2), drawn at the pan offset, has its
      centroid strictly within the triangle radius of window pixel m. */
  predicate NearCentroid(points: seq<Point>, k: nat, offsetX: int, offsetY: int, m: Pointer)
    requires 3 * k + 2 < |points|
  {
    var cx := (points[3 * k].x + points[3 * k + 1].x + points[3 * k + 2].x) / 3.0 + offsetX as real;
    var cy := (points[3 * k].y + points[3 * k + 1].y + points[3 * k + 2].y) / 3.0 + offsetY as real;
    var dx := m.x as real - cx;
    var dy := m.y as real - cy;
    dx * dx + dy * dy < (TriangleRadius * TriangleRadius) as real
  }

  /** Whether a right click at m flips the flag of triangle k. */
  predicate Flips(points: seq<Point>, k: nat, offsetX: int, offsetY: int, m: Pointer) {
    3 * k + 2 < |points| && NearCentroid(points, k, offsetX, offsetY, m)
  }

  /** The right-click loop from point index i on: every complete triangle whose
      centroid is near m has its flag flipped, if it has one. */
  function ToggleFrom(sel: seq<bool>, points: seq<Point>, offsetX: int, offsetY: int, m: Pointer, i: nat): (r: seq<bool>)
    requires i % 3 == 0
    ensures |r| == |sel|
    ensures forall k :: 0 <= k < |sel| ==>
      r[k] == if 3 * k >= i && Flips(points, k, offsetX, offsetY, m) then !sel[k] else sel[k]
    decreases |points| - i
  {
    if i + 2 >= |points| then sel
    else
      var k := i / 3;
      var sel' := if NearCentroid(points, k, offsetX, offsetY, m) && k < |sel| then sel[k := !sel[k]] else sel;
      ToggleFrom(sel', points, offsetX, offsetY, m, i + 3)
  }

  /** A right click, m being the pointer position sampled at the frame's start. */
  function RightClick(s: Session, m: Pointer): (r: Session)
    ensures |r.selected| == |s.selected|
    ensures forall k :: 0 <= k < |s.selected| ==>
      r.selected[k] == (s.selected[k] != Flips(s.points, k, s.offsetX, s.offsetY, m))
    ensures r.(selected := s.selected) == s
  {
    s.(selected := ToggleFrom(s.selected, s.points, s.offsetX, s.offsetY, m, 0))
  }

  /** Two right clicks at the same place with nothing in between cancel out. */
  lemma RightClickTwice(s: Session, m: Pointer)
    ensures RightClick(RightClick(s, m), m) == s
  {
    var r := RightClick(RightClick(s, m), m);
    assert r.selected == s.selected;
  }

  // ---------------------------------------------------------------------------
  // Keys

  predicate IsPan(k: Key) {
    k.ArrowLeft? || k.ArrowRight? || k.ArrowUp? || k.ArrowDown?
  }

  /** The archive the print after Return's save opens at the object's
      location: the one just written, or else whatever is at that path. */
  function FoundAfterSave(saved: Archive.Saved, saving: Saving): Option<seq<Archive.Entry>> {
    if saved.Succeeded() then Some(saved.outcome.entries) else saving.existing(saved.obj.location)
  }

  /** A key press. Arrow keys pan the view, Escape ends the loop, and Return
      saves, ends the loop and prints the object; the print throws on an
      archive holding a name of five or more characters, and nothing catches
      it. */
  function OnKey(s: Session, k: Key, saving: Saving): (r: Session)
    ensures r.points == s.points && r.texture == s.texture && r.selected == s.selected
    ensures !k.Return? ==> r.location == s.location && r.aborted == s.aborted
    ensures k.ArrowLeft? ==> r.offsetX == s.offsetX - PanStep && r.offsetY == s.offsetY
    ensures k.ArrowRight? ==> r.offsetX == s.offsetX + PanStep && r.offsetY == s.offsetY
    ensures k.ArrowUp? ==> r.offsetX == s.offsetX && r.offsetY == s.offsetY - PanStep
    ensures k.ArrowDown? ==> r.offsetX == s.offsetX && r.offsetY == s.offsetY + PanStep
    ensures !IsPan(k) ==> r.offsetX == s.offsetX && r.offsetY == s.offsetY
    ensures IsPan(k) || k.OtherKey? ==> r.running == s.running
    ensures k.Escape? || k.Return? ==> !r.running
    ensures k.Return? ==>
      var w := Archive.Save(s.Obj(), saving.env, saving.num);
      && (w.outcome.Cancelled? ==> r.location == s.location)
      && (w.Succeeded() ==> r.location == Archive.Target(s.Obj(), saving.env) + Archive.ArchiveExtension)
      && (w.outcome.CopyFailed? || w.outcome.ArchiveFailed? ==> r.location == Archive.Target(s.Obj(), saving.env))
      && (r.aborted <==> s.aborted || Archive.Inspect(r.location, FoundAfterSave(w, saving)).SubstrThrew?)
  {
    match k
    case Escape => s.(running := false)
    case ArrowLeft => s.(offsetX := s.offsetX - PanStep)
    case ArrowRight => s.(offsetX := s.offsetX + PanStep)
    case ArrowUp => s.(offsetY := s.offsetY - PanStep)
    case ArrowDown => s.(offsetY := s.offsetY + PanStep)
    case Return =>
      var saved := Archive.Save(s.Obj(), saving.env, saving.num);
      var shown := Archive.Inspect(saved.obj.location, FoundAfterSave(saved, saving));
      s.(location := saved.obj.location, running := false, aborted := s.aborted || shown.SubstrThrew?)
    case OtherKey => s
  }

  // ---------------------------------------------------------------------------
  // Events, frames, sessions

  /** The selection has grown by exactly one flag per triangle completed. */
  predicate TracksTriangles(s: Session, r: Session) {
    |r.selected| + |s.points| / 3 == |s.selected| + |r.points| / 3
  }

  /** Points are only ever appended, and the texture never changes. */
  predicate Grows(s: Session, r: Session) {
    && |s.points| <= |r.points|
    && r.points[..|s.points|] == s.points
    && r.texture == s.texture
  }

  /** e is a press of the left button. */
  predicate IsLeftClick(e: Event) {
    e.ButtonDown? && e.button.LeftButton?
  }

  /** e ends the loop: the window is closed, or Escape or Return is pressed. */
  predicate EndsLoop(e: Event) {
    e == QuitEvent || e == KeyDown(Escape) || e == KeyDown(Return)
  }

  function Step(s: Session, img: Image, hover: int, m: Pointer, e: Event, saving: Saving): (r: Session)
    requires img.Decoded()
    requires -1 <= hover < |s.points|
    ensures Grows(s, r)
    ensures |r.points| == |s.points| + if IsLeftClick(e) then 1 else 0
    ensures TracksTriangles(s, r)
    ensures r.running <==> s.running && !EndsLoop(e)
    ensures s.aborted ==> r.aborted
    ensures r.aborted && !s.aborted ==> e == KeyDown(Return) && !r.running
  {
    match e
    case QuitEvent => s.(running := false)
    case KeyDown(k) => OnKey(s, k, saving)
    case ButtonDown(LeftButton, x, y) => LeftClick(s, img, hover, x, y)
    case ButtonDown(RightButton, _, _) => RightClick(s, m)
    case _ => s
  }

  /** The events of one frame, with the hover index and pointer of the
      frame's start: all drained even once the loop has been ended, up to an
      exception that ends the program. */
  function Events(s: Session, img: Image, hover: int, m: Pointer, events: seq<Event>, saving: Saving): (r: Session)
    requires img.Decoded()
    requires -1 <= hover < |s.points|
    ensures Grows(s, r)
    ensures TracksTriangles(s, r)
    ensures !s.running ==> !r.running
    ensures s.aborted ==> r == s
    decreases |events|
  {
    if |events| == 0 || s.aborted then s
    else
      var s' := Step(s, img, hover, m, events[0], saving);
      var r := Events(s', img, hover, m, events[1..], saving);
      assert r.points[..|s.points|] == r.points[..|s'.points|][..|s.points|];
      r
  }

  /** The hovered point of a frame: the hover test at the pointer position of
      the frame's start, taken relative to the pan offset. */
  function FrameHover(s: Session, f: Frame): (h: int)
    ensures -1 <= h < |s.points|
    ensures h == -1 <==>
      forall j :: 0 <= j < |s.points| ==> !NearPoint(s.points[j], f.mouse.x - s.offsetX, f.mouse.y - s.offsetY)
    ensures h != -1 ==>
      && NearPoint(s.points[h], f.mouse.x - s.offsetX, f.mouse.y - s.offsetY)
      && forall j :: 0 <= j < h ==> !NearPoint(s.points[j], f.mouse.x - s.offsetX, f.mouse.y - s.offsetY)
  {
    Hover(s.points, f.mouse.x - s.offsetX, f.mouse.y - s.offsetY)
  }

  function DoFrame(s: Session, img: Image, f: Frame, saving: Saving): (r: Session)
    requires img.Decoded()
    ensures Grows(s, r)
    ensures TracksTriangles(s, r)
  {
    Events(s, img, FrameHover(s, f), f.mouse, f.events, saving)
  }

  /** The session loop: frames are processed while the session runs and the
      program has not ended. */
  function RunSession(s: Session, img: Image, frames: seq<Frame>, saving: Saving): (r: Session)
    requires img.Decoded()
    ensures Grows(s, r)
    ensures TracksTriangles(s, r)
    decreases |frames|
  {
    if !s.running || s.aborted || |frames| == 0 then s
    else
      var s' := DoFrame(s, img, frames[0], saving);
      var r := RunSession(s', img, frames[1..], saving);
      assert r.points[..|s.points|] == r.points[..|s'.points|][..|s.points|];
      r
  }

  /** A session's start: no points, the image path as texture, never saved,
      no pan, the selection vector as the previous session left it. */
  function Begin(imagePath: string, selected: seq<bool>): (s: Session)
    ensures s.Obj().surfaces == [Surface([], imagePath)] && s.Obj().NeverSaved()
    ensures s.selected == selected && s.offsetX == 0 && s.offsetY == 0 && s.running && !s.aborted
  {
    Session([], imagePath, "", selected, 0, 0, true, false)
  }

  /** How `buildFromPNG` ends: it returns the object built and the selection
      vector, which outlives the session, once the loop has ended; or the
      program has ended inside it; or the frames given ran out while the loop
      still runs, so it has not returned yet. */
  datatype Build = Built(obj: Objx, selected: seq<bool>) | Terminated | Unfinished

  /** `buildFromPNG`: a session over the image at `imagePath` (None: it could
      not be loaded and no session runs). */
  function BuildFromPng(imagePath: string, image: Option<Image>, selected: seq<bool>,
                        frames: seq<Frame>, saving: Saving): (r: Build)
    requires image.Some? ==> image.value.Decoded()
    ensures r.Built? ==> |r.obj.surfaces| == 1 && r.obj.surfaces[0].texture == imagePath
    ensures r.Built? ==> |r.selected| == |selected| + |r.obj.surfaces[0].points| / 3
    ensures image.None? ==> r == Built(Objx([Surface([], imagePath)], ""), selected)
    ensures r.Unfinished? <==> image.Some? && !FramesEnd(frames)
    ensures r.Terminated? ==> image.Some? && FramesReturn(frames)
  {
    match image
    case None => Built(Objx([Surface([], imagePath)], ""), selected)
    case Some(img) =>
      var s := RunSession(Begin(imagePath, selected), img, frames, saving);
      SessionRunning(Begin(imagePath, selected), img, frames, saving);
      if s.aborted then Terminated else if s.running then Unfinished else Built(s.Obj(), s.selected)
  }

  /** A session ended by Escape, with no Return pressed, returns the object. */
  lemma EscapeBuilds(imagePath: string, img: Image, selected: seq<bool>, m: Pointer, saving: Saving)
    requires img.Decoded()
    ensures BuildFromPng(imagePath, Some(img), selected, [Frame(m, [KeyDown(Escape)])], saving).Built?
  {
    var frames := [Frame(m, [KeyDown(Escape)])];
    assert EndsLoop(frames[0].events[0]);
    assert EventsEnd(frames[0].events);
    assert !EventsReturn(frames[0].events);
  }

  /** Some event of the list ends the loop. */
  predicate EventsEnd(events: seq<Event>) {
    exists j :: 0 <= j < |events| && EndsLoop(events[j])
  }

  /** Some event of some frame ends the loop. */
  predicate FramesEnd(frames: seq<Frame>) {
    exists k :: 0 <= k < |frames| && EventsEnd(frames[k].events)
  }

  /** Some event of the list presses Return. */
  predicate EventsReturn(events: seq<Event>) {
    exists j :: 0 <= j < |events| && events[j] == KeyDown(Return)
  }

  /** Some event of some frame presses Return. */
  predicate FramesReturn(frames: seq<Frame>) {
    exists k :: 0 <= k < |frames| && EventsReturn(frames[k].events)
  }

  /** After a frame's events the loop still runs exactly when it ran before
      and none of the events ends it; an ended program has ended the loop. */
  lemma {:induction false} EventsRunning(s: Session, img: Image, hover: int, m: Pointer,
                                         events: seq<Event>, saving: Saving)
    requires img.Decoded()
    requires -1 <= hover < |s.points|
    requires s.aborted ==> !s.running
    ensures var r := Events(s, img, hover, m, events, saving);
      && (r.running <==> s.running && !EventsEnd(events))
      && (r.aborted ==> !r.running)
      && (r.aborted && !s.aborted ==> EventsReturn(events))
    decreases |events|
  {
    if |events| > 0 && !s.aborted {
      var s' := Step(s, img, hover, m, events[0], saving);
      EventsUnfold(s, img, hover, m, events, saving);
      EventsRunning(s', img, hover, m, events[1..], saving);
      EventsEndCons(events);
      EventsReturnCons(events);
    }
  }

  lemma EventsReturnCons(events: seq<Event>)
    requires |events| > 0
    ensures events[0] == KeyDown(Return) || EventsReturn(events[1..]) ==> EventsReturn(events)
  {
    if EventsReturn(events[1..]) {
      var j :| 0 <= j < |events[1..]| && events[1..][j] == KeyDown(Return);
      assert events[j + 1] == events[1..][j];
    }
  }

  lemma FramesReturnCons(frames: seq<Frame>)
    requires |frames| > 0
    ensures EventsReturn(frames[0].events) || FramesReturn(frames[1..]) ==> FramesReturn(frames)
  {
    if FramesReturn(frames[1..]) {
      var k :| 0 <= k < |frames[1..]| && EventsReturn(frames[1..][k].events);
      assert frames[k + 1] == frames[1..][k];
    }
  }

  lemma EventsEndCons(events: seq<Event>)
    requires |events| > 0
    ensures EventsEnd(events) <==> EndsLoop(events[0]) || EventsEnd(events[1..])
  {
    if EventsEnd(events[1..]) {
      var j :| 0 <= j < |events[1..]| && EndsLoop(events[1..][j]);
      assert events[j + 1] == events[1..][j];
    }
    if EventsEnd(events) && !EndsLoop(events[0]) {
      var j :| 0 <= j < |events| && EndsLoop(events[j]);
      assert events[1..][j - 1] == events[j];
    }
  }

  lemma FramesEndCons(frames: seq<Frame>)
    requires |frames| > 0
    ensures FramesEnd(frames) <==> EventsEnd(frames[0].events) || FramesEnd(frames[1..])
  {
    if FramesEnd(frames[1..]) {
      var k :| 0 <= k < |frames[1..]| && EventsEnd(frames[1..][k].events);
      assert frames[k + 1] == frames[1..][k];
    }
    if FramesEnd(frames) && !EventsEnd(frames[0].events) {
      var k :| 0 <= k < |frames| && EventsEnd(frames[k].events);
      assert frames[1..][k - 1] == frames[k];
    }
  }

  /** A session's loop still runs after its frames exactly when it ran at the
      start and no event of any frame ends it: only closing the window,
      Escape or Return stop it. */
  lemma {:induction false} SessionRunning(s: Session, img: Image, frames: seq<Frame>, saving: Saving)
    requires img.Decoded()
    requires s.aborted ==> !s.running
    ensures var r := RunSession(s, img, frames, saving);
      && (r.running <==> s.running && !FramesEnd(frames))
      && (r.aborted ==> !r.running)
      && (r.aborted && !s.aborted ==> FramesReturn(frames))
    decreases |frames|
  {
    if s.running && !s.aborted && |frames| > 0 {
      var s' := DoFrame(s, img, frames[0], saving);
      EventsRunning(s, img, FrameHover(s, frames[0]), frames[0].mouse, frames[0].events, saving);
      RunSessionUnfold(s, img, frames, saving);
      SessionRunning(s', img, frames[1..], saving);
      FramesEndCons(frames);
      FramesReturnCons(frames);
    }
  }

  // ---------------------------------------------------------------------------
  // Properties of a session

  /** The number of left-button presses among the events. */
  function LeftClicks(events: seq<Event>): nat {
    if |events| == 0 then 0
    else (if IsLeftClick(events[0]) then 1 else 0) + LeftClicks(events[1..])
  }

  /** A frame adds exactly one point per left click it handles: all its
      events, even after Escape or a cancelled save, unless a Return ends the
      program, and then the events up to that Return. */
  lemma {:induction false} EventsAddPerClick(s: Session, img: Image, hover: int, m: Pointer,
                                             events: seq<Event>, saving: Saving)
    requires img.Decoded()
    requires -1 <= hover < |s.points|
    requires !s.aborted
    ensures var r := Events(s, img, hover, m, events, saving);
      exists n :: 0 <= n <= |events| && |r.points| == |s.points| + LeftClicks(events[..n])
        && (n < |events| ==> r.aborted)
        && (r.aborted ==> 0 < n && events[n - 1] == KeyDown(Return))
    decreases |events|
  {
    var r := Events(s, img, hover, m, events, saving);
    if |events| == 0 {
      assert events[..0] == [];
      assert HandledUpTo(s, r, events, 0);
    } else {
      var s' := Step(s, img, hover, m, events[0], saving);
      EventsUnfold(s, img, hover, m, events, saving);
      if s'.aborted {
        HandledFirst(s, s', events);
      } else {
        EventsAddPerClick(s', img, hover, m, events[1..], saving);
        var n' :| 0 <= n' <= |events[1..]|
          && |r.points| == |s'.points| + LeftClicks(events[1..][..n'])
          && (n' < |events[1..]| ==> r.aborted)
          && (r.aborted ==> 0 < n' && events[1..][n' - 1] == KeyDown(Return));
        HandledAfterFirst(s, s', r, events, n');
      }
    }
  }

  /** The first event ended the program: it was handled and nothing after it. */
  lemma HandledFirst(s: Session, s': Session, events: seq<Event>)
    requires |events| > 0 && s'.aborted && events[0] == KeyDown(Return)
    requires |s'.points| == |s.points| + if IsLeftClick(events[0]) then 1 else 0
    ensures HandledUpTo(s, s', events, 1)
  {
    LeftClicksPrefix(events, 1);
    assert events[1..][..0] == [];
  }

  /** The first event was handled and the rest were handled up to n'. */
  lemma HandledAfterFirst(s: Session, s': Session, r: Session, events: seq<Event>, n': int)
    requires |events| > 0
    requires |s'.points| == |s.points| + if IsLeftClick(events[0]) then 1 else 0
    requires HandledUpTo(s', r, events[1..], n')
    ensures HandledUpTo(s, r, events, n' + 1)
  {
    LeftClicksPrefix(events, n' + 1);
  }

  /** r holds one point more than s per left click among the first n events,
      the events after them were not handled because the program ended, and
      it ended at a Return. */
  predicate HandledUpTo(s: Session, r: Session, events: seq<Event>, n: int) {
    && 0 <= n <= |events| && |r.points| == |s.points| + LeftClicks(events[..n])
    && (n < |events| ==> r.aborted)
    && (r.aborted ==> 0 < n && events[n - 1] == KeyDown(Return))
  }

  lemma EventsUnfold(s: Session, img: Image, hover: int, m: Pointer, events: seq<Event>, saving: Saving)
    requires img.Decoded() && -1 <= hover < |s.points|
    requires !s.aborted && |events| > 0
    ensures Events(s, img, hover, m, events, saving)
         == Events(Step(s, img, hover, m, events[0], saving), img, hover, m, events[1..], saving)
  {
  }

  lemma LeftClicksPrefix(events: seq<Event>, n: int)
    requires 0 < n <= |events|
    ensures LeftClicks(events[..n]) == (if IsLeftClick(events[0]) then 1 else 0) + LeftClicks(events[1..][..n - 1])
  {
    assert events[..n][1..] == events[1..][..n - 1];
  }

  /** A point as the digitizer makes it: at a whole pixel of the image, at
      depth 0, with texture coordinates that scale back to that pixel. */
  predicate Digitized(p: Point, img: Image) {
    && p.x == p.x.Floor as real && p.y == p.y.Floor as real && p.z == 0.0
    && p.u * img.width as real == p.x && p.v * img.height as real == p.y
  }

  predicate AllDigitized(points: seq<Point>, img: Image) {
    forall i :: 0 <= i < |points| ==> Digitized(points[i], img)
  }

  lemma StepDigitized(s: Session, img: Image, hover: int, m: Pointer, e: Event, saving: Saving)
    requires img.Decoded()
    requires -1 <= hover < |s.points|
    requires AllDigitized(s.points, img)
    ensures AllDigitized(Step(s, img, hover, m, e, saving).points, img)
  {
    var r := Step(s, img, hover, m, e, saving);
    if IsLeftClick(e) {
      assert r.points == s.points + [r.points[|s.points|]];
      if hover == -1 {
        var p := ClickPoint(e.x - s.offsetX, e.y - s.offsetY, img);
        assert r.points[|s.points|] == p;
        assert Digitized(p, img);
      } else {
        assert Digitized(s.points[hover], img);
      }
    } else {
      assert r.points == s.points;
    }
  }

  lemma {:induction false} EventsDigitized(s: Session, img: Image, hover: int, m: Pointer,
                                           events: seq<Event>, saving: Saving)
    requires img.Decoded()
    requires -1 <= hover < |s.points|
    requires AllDigitized(s.points, img)
    ensures AllDigitized(Events(s, img, hover, m, events, saving).points, img)
    decreases |events|
  {
    if |events| > 0 && !s.aborted {
      var s' := Step(s, img, hover, m, events[0], saving);
      StepDigitized(s, img, hover, m, events[0], saving);
      EventsDigitized(s', img, hover, m, events[1..], saving);
    }
  }

  lemma FrameDigitized(s: Session, img: Image, f: Frame, saving: Saving)
    requires img.Decoded()
    requires AllDigitized(s.points, img)
    ensures AllDigitized(DoFrame(s, img, f, saving).points, img)
  {
    EventsDigitized(s, img, FrameHover(s, f), f.mouse, f.events, saving);
  }

  lemma RunSessionUnfold(s: Session, img: Image, frames: seq<Frame>, saving: Saving)
    requires img.Decoded()
    requires s.running && !s.aborted && |frames| > 0
    ensures RunSession(s, img, frames, saving) == RunSession(DoFrame(s, img, frames[0], saving), img, frames[1..], saving)
  {
  }

  /** Every point of a session, created or duplicated, is a digitized pixel
      of the image. */
  lemma {:induction false} SessionDigitized(s: Session, img: Image, frames: seq<Frame>, saving: Saving)
    requires img.Decoded()
    requires AllDigitized(s.points, img)
    ensures AllDigitized(RunSession(s, img, frames, saving).points, img)
    decreases |frames|
  {
    if s.running && !s.aborted && |frames| > 0 {
      FrameDigitized(s, img, frames[0], saving);
      RunSessionUnfold(s, img, frames, saving);
      SessionDigitized(DoFrame(s, img, frames[0], saving), img, frames[1..], saving);
    }
  }

  /** Whatever the user does, an object returned for a decoded image has one
      surface, textured with the image, whose points are digitized pixels. */
  lemma BuildDigitized(imagePath: string, img: Image, selected: seq<bool>, frames: seq<Frame>, saving: Saving)
    requires img.Decoded()
    ensures var r := BuildFromPng(imagePath, Some(img), selected, frames, saving);
      r.Built? ==> AllDigitized(r.obj.surfaces[0].points, img)
  {
    SessionDigitized(Begin(imagePath, selected), img, frames, saving);
  }

  /** Pressing Return after a successful save ends the program: the object
      is located at the archive written, its points untouched, and printing
      it throws. */
  lemma ReturnSaves(s: Session, saving: Saving)
    requires Archive.Save(s.Obj(), saving.env, saving.num).Succeeded()
    requires Archive.NameFits(BaseName(s.texture))
    ensures var r := OnKey(s, Return, saving);
      && !r.running && r.aborted && r.points == s.points && r.texture == s.texture
      && r.location == Archive.Target(s.Obj(), saving.env) + Archive.ArchiveExtension
      && r.location == Archive.Save(s.Obj(), saving.env, saving.num).outcome.path
  {
    assert forall i :: 0 <= i < |s.Obj().surfaces| ==> Archive.NameFits(BaseName(s.Obj().surfaces[i].texture));
    Archive.InspectAfterSave(s.Obj(), saving.env, saving.num);
  }

  /** Pressing Return when the save dialog is cancelled only ends the loop:
      nothing is printed and the remaining events of the frame still run. */
  lemma ReturnCancelled(s: Session, saving: Saving)
    requires Archive.Save(s.Obj(), saving.env, saving.num).outcome.Cancelled?
    ensures OnKey(s, Return, saving) == s.(running := false)
  {
  }

  /** A frame that only presses Return, with a successful save, ends the
      program. */
  lemma ReturnFrameAborts(s: Session, img: Image, m: Pointer, saving: Saving)
    requires img.Decoded() && !s.aborted
    requires Archive.Save(s.Obj(), saving.env, saving.num).Succeeded()
    requires Archive.NameFits(BaseName(s.texture))
    ensures DoFrame(s, img, Frame(m, [KeyDown(Return)]), saving).aborted
  {
    var f := Frame(m, [KeyDown(Return)]);
    ReturnSaves(s, saving);
    EventsOne(s, img, FrameHover(s, f), m, KeyDown(Return), saving);
  }

  /** A single event is one step. */
  lemma EventsOne(s: Session, img: Image, hover: int, m: Pointer, e: Event, saving: Saving)
    requires img.Decoded() && !s.aborted
    requires -1 <= hover < |s.points|
    ensures Events(s, img, hover, m, [e], saving) == Step(s, img, hover, m, e, saving)
  {
    assert [e][1..] == [];
  }

  /** A session whose first frame presses Return with a successful save
      never returns from `buildFromPNG`. */
  lemma SaveEndsBuild(imagePath: string, img: Image, selected: seq<bool>, m: Pointer,
                      more: seq<Frame>, saving: Saving)
    requires img.Decoded()
    requires Archive.Save(Objx([Surface([], imagePath)], ""), saving.env, saving.num).Succeeded()
    requires Archive.NameFits(BaseName(imagePath))
    ensures BuildFromPng(imagePath, Some(img), selected, [Frame(m, [KeyDown(Return)])] + more, saving) == Terminated
  {
    var s := Begin(imagePath, selected);
    var frames := [Frame(m, [KeyDown(Return)])] + more;
    assert s.Obj() == Objx([Surface([], imagePath)], "");
    ReturnFrameAborts(s, img, m, saving);
    RunSessionUnfold(s, img, frames, saving);
  }

  /** The archive a successful Return writes opens as the surface being
      built, its texture reduced to the image's file name, after the default
      surface, provided the surface has points. */
  lemma ReturnThenOpen(s: Session, saving: Saving, es: seq<Archive.Entry>)
    requires Mesh.PointsRoundTrip(saving.num, s.points)
    requires |s.points| > 0 && NoNewline(BaseName(s.texture))
    requires IsExternal(s.texture) ==> !Archive.IsMeshName(BaseName(s.texture))
    requires Archive.Save(s.Obj(), saving.env, saving.num).Succeeded()
    requires Archive.Reordered(es, Archive.Save(s.Obj(), saving.env, saving.num).outcome)
    ensures var w := Archive.Save(s.Obj(), saving.env, saving.num).outcome;
      Archive.Open(w.path, Some(es), saving.num)
      == Archive.Opened(Objx([EmptySurface, Surface(s.points, BaseName(s.texture))], w.path), Archive.Loaded)
  {
    assert Archive.NoMeshTextures(s.Obj().surfaces);
    Archive.SaveThenOpenOne(s.Obj(), saving.env, saving.num, es);
  }
}

=== FILE: mesh.dfy ===
/** The `.mesh` text inside an Objx archive: the line parser of `Objx::open`,
    the writer of `Objx::save`, the round trip between them, and a
    block-by-block reference reading of the parser. */
module Mesh {
  import opened Wrappers
  import opened Text
  import opened Model

  /** How a float is printed (`operator<<`) and read back (`operator>>`).
      Float formatting is not modelled: both directions are parameters. */
  datatype NumText = NumText(show: real -> string, read: string -> real)

  /** x prints as one word that reads back as x. The stream's default
      format keeps six significant digits, so this holds for some values and
      not for others: the round trip is stated for the values written. */
  predicate ShowsExactly(num: NumText, x: real) {
    IsWord(num.show(x)) && num.read(num.show(x)) == x
  }

  /** All five numbers of p print and read back exactly. */
  predicate PointRoundTrips(num: NumText, p: Point) {
    && ShowsExactly(num, p.x) && ShowsExactly(num, p.y) && ShowsExactly(num, p.z)
    && ShowsExactly(num, p.u) && ShowsExactly(num, p.v)
  }

  predicate PointsRoundTrip(num: NumText, ps: seq<Point>) {
    forall i :: 0 <= i < |ps| ==> PointRoundTrips(num, ps[i])
  }

  predicate SurfacesRoundTrip(num: NumText, ss: seq<Surface>) {
    forall i :: 0 <= i < |ss| ==> PointsRoundTrip(num, ss[i].points)
  }

  /** The index of the first occurrence of x in vals, or |vals| if none. */
  function FirstIndex(vals: seq<real>, x: real): (k: nat)
    ensures k <= |vals|
    ensures k < |vals| ==> vals[k] == x
    ensures x in vals ==> k < |vals|
    decreases |vals|
  {
    if |vals| == 0 || vals[0] == x then 0 else 1 + FirstIndex(vals[1..], x)
  }

  /** The word of n letters 'a'. */
  function Tally(n: nat): (w: string)
    ensures |w| == n && forall i :: 0 <= i < n ==> w[i] == 'a'
  {
    seq(n, _ => 'a')
  }

  predicate ShowsAll(num: NumText, vals: seq<real>) {
    forall i :: 0 <= i < |vals| ==> ShowsExactly(num, vals[i])
  }

  /** For any finite list of numbers some number text round-trips them all:
      each is written as a tally of its position in the list. */
  lemma ShowsAllSome(vals: seq<real>)
    ensures exists num :: ShowsAll(num, vals)
  {
    var num := NumText(x => Tally(FirstIndex(vals, x) + 1),
                       w => if 0 < |w| <= |vals| then vals[|w| - 1] else 0.0);
    forall i | 0 <= i < |vals| ensures ShowsExactly(num, vals[i]) {
      assert vals[i] in vals;
      var k := FirstIndex(vals, vals[i]);
      assert num.show(vals[i]) == Tally(k + 1);
    }
    assert ShowsAll(num, vals);
  }

  /** Every point has a number text under which it round-trips. */
  lemma PointRoundTripsSome(p: Point)
    ensures exists num :: PointRoundTrips(num, p)
  {
    var vals := [p.x, p.y, p.z, p.u, p.v];
    ShowsAllSome(vals);
    var num :| ShowsAll(num, vals);
    assert ShowsExactly(num, vals[0]) && ShowsExactly(num, vals[1]) && ShowsExactly(num, vals[2]);
    assert ShowsExactly(num, vals[3]) && ShowsExactly(num, vals[4]);
    assert PointRoundTrips(num, p);
  }

  /** The coordinates of the points, in order. */
  function PointsCoordinates(ps: seq<Point>): (vals: seq<real>)
    ensures forall j :: 0 <= j < |ps| ==>
      && ps[j].x in vals && ps[j].y in vals && ps[j].z in vals
      && ps[j].u in vals && ps[j].v in vals
    decreases |ps|
  {
    if |ps| == 0 then []
    else
      var p := ps[0];
      [p.x, p.y, p.z, p.u, p.v] + PointsCoordinates(ps[1..])
  }

  /** The coordinates of every point of every surface. */
  function SurfacesCoordinates(ss: seq<Surface>): (vals: seq<real>)
    ensures forall i, j :: 0 <= i < |ss| && 0 <= j < |ss[i].points| ==>
      && ss[i].points[j].x in vals && ss[i].points[j].y in vals && ss[i].points[j].z in vals
      && ss[i].points[j].u in vals && ss[i].points[j].v in vals
    decreases |ss|
  {
    if |ss| == 0 then []
    else PointsCoordinates(ss[0].points) + SurfacesCoordinates(ss[1..])
  }

  lemma ShowsMember(num: NumText, vals: seq<real>, x: real)
    requires ShowsAll(num, vals) && x in vals
    ensures ShowsExactly(num, x)
  {
    var k :| 0 <= k < |vals| && vals[k] == x;
  }

  /** Every list of surfaces has a number text under which all of its
      coordinates print and read back exactly, so the round trip below is
      never vacuous. */
  lemma SurfacesRoundTripSome(ss: seq<Surface>)
    ensures exists num :: SurfacesRoundTrip(num, ss)
  {
    var vals := SurfacesCoordinates(ss);
    ShowsAllSome(vals);
    var num :| ShowsAll(num, vals);
    forall i, j | 0 <= i < |ss| && 0 <= j < |ss[i].points|
      ensures PointRoundTrips(num, ss[i].points[j])
    {
      var p := ss[i].points[j];
      ShowsMember(num, vals, p.x);
      ShowsMember(num, vals, p.y);
      ShowsMember(num, vals, p.z);
      ShowsMember(num, vals, p.u);
      ShowsMember(num, vals, p.v);
    }
    assert SurfacesRoundTrip(num, ss);
  }

  lemma PointsRoundTripCons(num: NumText, ps: seq<Point>)
    requires |ps| > 0 && PointsRoundTrip(num, ps)
    ensures PointRoundTrips(num, ps[0]) && PointsRoundTrip(num, ps[1..])
  {
    forall i | 0 <= i < |ps[1..]| ensures PointRoundTrips(num, ps[1..][i]) {
      assert ps[1..][i] == ps[i + 1];
    }
  }

  lemma SurfacesRoundTripCons(num: NumText, ss: seq<Surface>)
    requires |ss| > 0 && SurfacesRoundTrip(num, ss)
    ensures PointsRoundTrip(num, ss[0].points) && SurfacesRoundTrip(num, ss[1..])
  {
    forall i | 0 <= i < |ss[1..]| ensures PointsRoundTrip(num, ss[1..][i].points) {
      assert ss[1..][i] == ss[i + 1];
    }
  }

  // ---------------------------------------------------------------------------
  // Reading

  /** The k-th number of a vertex line; a missing one reads as 0. */
  function ReadNumber(ws: seq<string>, k: nat, num: NumText): real {
    if k < |ws| then num.read(ws[k]) else 0.0
  }

  /** The point `>> x >> y >> z >> u >> v` reads from the text after "v ". */
  function ReadPoint(text: string, num: NumText): Point {
    var ws := Words(text);
    Point(ReadNumber(ws, 0, num), ReadNumber(ws, 1, num), ReadNumber(ws, 2, num),
          ReadNumber(ws, 3, num), ReadNumber(ws, 4, num))
  }

  const TexturePrefix: string := "texture="

  /** What one line of the file is to the parser. `BareV` is the line "v",
      on which taking the text after its first two characters throws. */
  datatype LineKind = Blank | TextureLine(name: string) | VertexLine(point: Point) | BareV | Ignored

  function Classify(line: string, num: NumText): LineKind {
    if line == [] then Blank
    else if |line| >= |TexturePrefix| && line[..|TexturePrefix|] == TexturePrefix then
      TextureLine(line[|TexturePrefix|..])
    else if line[0] == 'v' then
      if |line| < 2 then BareV else VertexLine(ReadPoint(line[2..], num))
    else Ignored
  }

  lemma ClassifyBareV(line: string, num: NumText)
    ensures Classify(line, num).BareV? <==> line == "v"
  {
    if Classify(line, num).BareV? {
      assert |line| == 1 && line[0] == 'v';
      assert line == "v";
    }
  }

  /** The error raised while reading: the (zero-based) index of a line "v". */
  datatype MeshError = BareVertexLine(line: nat)

  /** The parser state: surfaces committed so far and the pending surface. */
  datatype Parser = Parser(committed: seq<Surface>, pending: Surface)

  const Start := Parser([], EmptySurface)

  /** The committed surfaces once the pending one is closed: it is kept only
      if it has at least one point. */
  function Close(st: Parser): (r: seq<Surface>)
    ensures |st.pending.points| > 0 ==> r == st.committed + [st.pending]
    ensures |st.pending.points| == 0 ==> r == st.committed
  {
    if |st.pending.points| > 0 then st.committed + [st.pending] else st.committed
  }

  /** One iteration of the reading loop. */
  function Feed(st: Parser, k: LineKind): (r: Parser)
    requires !k.BareV?
    ensures k.Blank? ==> r == Parser(Close(st), EmptySurface)
    ensures k.TextureLine? ==> r == Parser(st.committed, Surface(st.pending.points, k.name))
    ensures k.VertexLine? ==> r == Parser(st.committed, Surface(st.pending.points + [k.point], st.pending.texture))
    ensures k.Ignored? ==> r == st
  {
    match k
    case Blank => Parser(Close(st), EmptySurface)
    case TextureLine(t) => st.(pending := st.pending.(texture := t))
    case VertexLine(p) => st.(pending := st.pending.(points := st.pending.points + [p]))
    case Ignored => st
  }

  predicate NoBareV(lines: seq<string>) {
    forall i :: 0 <= i < |lines| ==> lines[i] != "v"
  }

  /** The reading loop from state st over lines, the first of which has index
      `at` in the file; the pending surface is closed at end of input. */
  function Run(st: Parser, lines: seq<string>, at: nat, num: NumText): Result<seq<Surface>, MeshError>
    decreases |lines|
  {
    if |lines| == 0 then Success(Close(st))
    else
      var k := Classify(lines[0], num);
      if k.BareV? then Failure(BareVertexLine(at))
      else Run(Feed(st, k), lines[1..], at + 1, num)
  }

  /** The loop throws exactly when some line is "v", and then at the first
      such line. */
  lemma {:induction false} RunOutcome(st: Parser, lines: seq<string>, at: nat, num: NumText)
    ensures Run(st, lines, at, num).Success? <==> NoBareV(lines)
    ensures var r := Run(st, lines, at, num);
      r.Failure? ==>
        && at <= r.error.line < at + |lines|
        && lines[r.error.line - at] == "v"
        && NoBareV(lines[..r.error.line - at])
    decreases |lines|
  {
    if |lines| > 0 {
      var k := Classify(lines[0], num);
      ClassifyBareV(lines[0], num);
      NoBareVCons(lines);
      if k.BareV? {
        assert lines[..0] == [];
      } else {
        var r := Run(Feed(st, k), lines[1..], at + 1, num);
        assert Run(st, lines, at, num) == r;
        RunOutcome(Feed(st, k), lines[1..], at + 1, num);
        if r.Failure? {
          NoBareVPrefixCons(lines, r.error.line - at);
        }
      }
    }
  }

  lemma NoBareVCons(lines: seq<string>)
    requires |lines| > 0
    ensures NoBareV(lines) <==> lines[0] != "v" && NoBareV(lines[1..])
  {
    if lines[0] != "v" && NoBareV(lines[1..]) {
      forall i | 0 < i < |lines| ensures lines[i] != "v" {
        assert lines[i] == lines[1..][i - 1];
      }
    }
  }

  /** A prefix of lines free of "v" after a first line that is not "v". */
  lemma NoBareVPrefixCons(lines: seq<string>, j: int)
    requires 0 < j <= |lines| && lines[0] != "v"
    requires NoBareV(lines[1..][..j - 1])
    ensures NoBareV(lines[..j])
  {
    assert lines[1..][..j - 1] == lines[1..j];
    forall i | 0 < i < j ensures lines[..j][i] != "v" {
      assert lines[..j][i] == lines[1..][..j - 1][i - 1];
    }
  }

  /** The loop only ever appends to the committed surfaces, and only surfaces
      that have points. */
  lemma {:induction false} RunKeepsCommitted(st: Parser, lines: seq<string>, at: nat, num: NumText)
    ensures var r := Run(st, lines, at, num);
      r.Success? ==>
        && |st.committed| <= |r.value|
        && r.value[..|st.committed|] == st.committed
        && (AllHavePoints(st.committed) ==> AllHavePoints(r.value))
    decreases |lines|
  {
    if |lines| > 0 {
      var k := Classify(lines[0], num);
      if !k.BareV? {
        RunKeepsCommitted(Feed(st, k), lines[1..], at + 1, num);
      }
    }
  }

  /** One turn of the reading loop on a line that does not throw. */
  lemma RunStep(st: Parser, lines: seq<string>, at: nat, num: NumText)
    requires |lines| > 0 && lines[0] != "v"
    ensures !Classify(lines[0], num).BareV?
    ensures Run(st, lines, at, num) == Run(Feed(st, Classify(lines[0], num)), lines[1..], at + 1, num)
  {
    ClassifyBareV(lines[0], num);
  }

  /** A final blank line changes nothing: the pending surface is committed
      at the end of the input whether or not a blank line closes it. */
  lemma {:induction false} RunFinalBlank(st: Parser, lines: seq<string>, at: nat, num: NumText)
    ensures Run(st, lines + [""], at, num) == Run(st, lines, at, num)
    decreases |lines|
  {
    var ls := lines + [""];
    if |lines| == 0 {
      assert ls[0] == "" && ls[1..] == [];
      RunStep(st, ls, at, num);
    } else {
      assert ls[0] == lines[0] && ls[1..] == lines[1..] + [""];
      var k := Classify(lines[0], num);
      if !k.BareV? {
        RunFinalBlank(Feed(st, k), lines[1..], at + 1, num);
      }
    }
  }

  /** A texture line closed at once by a blank line adds no surface. */
  lemma RunTextureOnly(c: seq<Surface>, t: string, more: seq<string>, at: nat, num: NumText)
    ensures Run(Parser(c, EmptySurface), [TexturePrefix + t, ""] + more, at, num)
         == Run(Parser(c, EmptySurface), more, at + 2, num)
  {
    assert [TexturePrefix + t, ""] + more == [TexturePrefix + t] + ([""] + more);
    RunTextureLine(c, t, [""] + more, at, num);
    RunBlankLine(Parser(c, Surface([], t)), more, at + 1, num);
  }

  /** Of two texture lines in a row, the second one names the surface. */
  lemma RunTextureReplaced(st: Parser, t1: string, t2: string, more: seq<string>, at: nat, num: NumText)
    ensures Run(st, [TexturePrefix + t1, TexturePrefix + t2] + more, at, num)
         == Run(st, [TexturePrefix + t2] + more, at + 1, num)
  {
    var lines := [TexturePrefix + t1, TexturePrefix + t2] + more;
    var lines2 := [TexturePrefix + t2] + more;
    assert lines[0] == TexturePrefix + t1 && lines[1..] == lines2;
    assert lines2[0] == TexturePrefix + t2 && lines2[1..] == more;
    ReadTextureLine(t1, num);
    ReadTextureLine(t2, num);
    RunStep(st, lines, at, num);
    var st1 := Feed(st, TextureLine(t1));
    RunStep(st1, lines2, at + 1, num);
    RunStep(st, lines2, at + 1, num);
    assert Feed(st1, TextureLine(t2)) == Feed(st, TextureLine(t2));
  }

  /** The surfaces a mesh file's lines describe, in file order, or the line
      on which reading throws. */
  function Parse(lines: seq<string>, num: NumText): (r: Result<seq<Surface>, MeshError>)
    ensures r.Success? <==> NoBareV(lines)
    ensures r.Success? ==> AllHavePoints(r.value)
    ensures r.Failure? ==>
      && r.error.line < |lines|
      && lines[r.error.line] == "v"
      && forall i :: 0 <= i < r.error.line ==> lines[i] != "v"
  {
    RunOutcome(Start, lines, 0, num);
    RunKeepsCommitted(Start, lines, 0, num);
    Run(Start, lines, 0, num)
  }

  /** A final blank line does not change what a file reads as. */
  lemma ParseFinalBlank(lines: seq<string>, num: NumText)
    ensures Parse(lines + [""], num) == Parse(lines, num)
  {
    RunFinalBlank(Start, lines, 0, num);
  }

  // ---------------------------------------------------------------------------
  // Writing

  function PointWords(p: Point, num: NumText): seq<string> {
    [num.show(p.x), num.show(p.y), num.show(p.z), num.show(p.u), num.show(p.v)]
  }

  function PointLine(p: Point, num: NumText): string {
    "v " + Unwords(PointWords(p, num))
  }

  function PointLines(ps: seq<Point>, num: NumText): (ls: seq<string>)
    ensures |ls| == |ps|
    ensures forall i :: 0 <= i < |ps| ==> ls[i] == PointLine(ps[i], num)
    decreases |ps|
  {
    if |ps| == 0 then [] else [PointLine(ps[0], num)] + PointLines(ps[1..], num)
  }

  /** One surface as written: its texture's file name, its points, a blank line. */
  function SurfaceLines(s: Surface, num: NumText): seq<string> {
    [TexturePrefix + BaseName(s.texture)] + PointLines(s.points, num) + [""]
  }

  lemma NoBareVConcat(a: seq<string>, b: seq<string>)
    requires NoBareV(a) && NoBareV(b)
    ensures NoBareV(a + b)
  {
    forall i | 0 <= i < |a + b| ensures (a + b)[i] != "v" {
      if i >= |a| {
        assert (a + b)[i] == b[i - |a|];
      }
    }
  }

  lemma PointLinesNoBareV(ps: seq<Point>, num: NumText)
    ensures NoBareV(PointLines(ps, num))
  {
    var ls := PointLines(ps, num);
    forall i | 0 <= i < |ls| ensures ls[i] != "v" {
      assert |ls[i]| >= 2;
    }
  }

  lemma SurfaceLinesNoBareV(s: Surface, num: NumText)
    ensures NoBareV(SurfaceLines(s, num))
  {
    var tex := TexturePrefix + BaseName(s.texture);
    assert NoBareV([tex]) by {
      assert |[tex][0]| >= |TexturePrefix|;
    }
    assert NoBareV([""]);
    PointLinesNoBareV(s.points, num);
    NoBareVConcat([tex], PointLines(s.points, num));
    NoBareVConcat([tex] + PointLines(s.points, num), [""]);
  }

  /** The lines of the `.mesh` file written for surfaces ss; none of them is
      the line that makes reading throw. */
  function Serialise(ss: seq<Surface>, num: NumText): (lines: seq<string>)
    ensures NoBareV(lines)
    decreases |ss|
  {
    if |ss| == 0 then []
    else
      var head := SurfaceLines(ss[0], num);
      var tail := Serialise(ss[1..], num);
      SurfaceLinesNoBareV(ss[0], num);
      NoBareVConcat(head, tail);
      head + tail
  }

  /** A surface as an archive keeps it: the texture reduced to its file name. */
  function ForArchive(s: Surface): Surface {
    s.(texture := BaseName(s.texture))
  }

  /** The surfaces that survive writing and reading back: those with points,
      in order, each texture a bare file name. */
  function Archived(ss: seq<Surface>): (r: seq<Surface>)
    ensures AllHavePoints(r)
    ensures |r| <= |ss|
    ensures forall i :: 0 <= i < |r| ==> NoSlash(r[i].texture)
    decreases |ss|
  {
    if |ss| == 0 then []
    else
      var s := ForArchive(ss[0]);
      (if |s.points| > 0 then [s] else []) + Archived(ss[1..])
  }

  lemma ArchivedOne(s: Surface)
    requires |s.points| > 0
    ensures Archived([s]) == [ForArchive(s)]
  {
    assert [s][1..] == [];
  }

  /** Every written line is free of line breaks when the texture file names are. */
  lemma SerialisedNoNewline(ss: seq<Surface>, num: NumText)
    requires SurfacesRoundTrip(num, ss)
    requires forall i :: 0 <= i < |ss| ==> NoNewline(BaseName(ss[i].texture))
    ensures forall i :: 0 <= i < |Serialise(ss, num)| ==> NoNewline(Serialise(ss, num)[i])
    decreases |ss|
  {
    if |ss| > 0 {
      var s := ss[0];
      var head := SurfaceLines(s, num);
      forall i | 0 <= i < |head| ensures NoNewline(head[i]) {
        if i == 0 {
          var l := TexturePrefix + BaseName(s.texture);
          forall j | 0 <= j < |l| ensures l[j] != '\n' {
            if j >= |TexturePrefix| {
              assert l[j] == BaseName(s.texture)[j - |TexturePrefix|];
            }
          }
        } else if i < |head| - 1 {
          var p := s.points[i - 1];
          assert PointsRoundTrip(num, ss[0].points);
          assert PointRoundTrips(num, p);
          assert head[i] == PointLine(p, num);
          UnwordsNoNewline(PointWords(p, num));
          var w := Unwords(PointWords(p, num));
          forall j | 0 <= j < |head[i]| ensures head[i][j] != '\n' {
            if j >= 2 {
              assert head[i][j] == w[j - 2];
            }
          }
        }
      }
      SurfacesRoundTripCons(num, ss);
      SerialisedNoNewline(ss[1..], num);
    }
  }

  // ---------------------------------------------------------------------------
  // Round trip

  lemma ReadShowPoint(p: Point, num: NumText)
    requires PointRoundTrips(num, p)
    ensures Classify(PointLine(p, num), num) == VertexLine(p)
  {
    var l := PointLine(p, num);
    WordsUnwords(PointWords(p, num));
    assert l[0] == 'v';
    assert l[2..] == Unwords(PointWords(p, num));
  }

  lemma ReadTextureLine(name: string, num: NumText)
    ensures Classify(TexturePrefix + name, num) == TextureLine(name)
  {
    var l := TexturePrefix + name;
    assert l[..|TexturePrefix|] == TexturePrefix;
    assert l[|TexturePrefix|..] == name;
  }

  /** Reading a written point line appends the point to the pending surface. */
  lemma RunPointLine(c: seq<Surface>, pts: seq<Point>, t: string, q: Point, rest: seq<string>, at: nat, num: NumText)
    requires PointRoundTrips(num, q)
    ensures Run(Parser(c, Surface(pts, t)), [PointLine(q, num)] + rest, at, num)
         == Run(Parser(c, Surface(pts + [q], t)), rest, at + 1, num)
  {
    var lines := [PointLine(q, num)] + rest;
    assert lines[0] == PointLine(q, num) && lines[1..] == rest;
    assert |lines[0]| >= 2;
    ReadShowPoint(q, num);
    RunStep(Parser(c, Surface(pts, t)), lines, at, num);
  }

  lemma {:induction false} RunPointLines(c: seq<Surface>, pts: seq<Point>, t: string,
                                         qs: seq<Point>, more: seq<string>, at: nat, num: NumText)
    requires PointsRoundTrip(num, qs)
    ensures Run(Parser(c, Surface(pts, t)), PointLines(qs, num) + more, at, num)
         == Run(Parser(c, Surface(pts + qs, t)), more, at + |qs|, num)
    decreases |qs|
  {
    if |qs| == 0 {
      assert PointLines(qs, num) + more == more;
      assert pts + qs == pts;
    } else {
      var rest := PointLines(qs[1..], num) + more;
      PointLinesCons(qs, more, num);
      PointsRoundTripCons(num, qs);
      RunPointLine(c, pts, t, qs[0], rest, at, num);
      RunPointLines(c, pts + [qs[0]], t, qs[1..], more, at + 1, num);
      AppendCons(pts, qs);
    }
  }

  lemma PointLinesCons(qs: seq<Point>, more: seq<string>, num: NumText)
    requires |qs| > 0
    ensures PointLines(qs, num) + more == [PointLine(qs[0], num)] + (PointLines(qs[1..], num) + more)
  {
    ConcatAssoc([PointLine(qs[0], num)], PointLines(qs[1..], num), more);
  }

  /** Reading a texture line into a fresh surface names its texture. */
  lemma RunTextureLine(c: seq<Surface>, name: string, rest: seq<string>, at: nat, num: NumText)
    ensures Run(Parser(c, EmptySurface), [TexturePrefix + name] + rest, at, num)
         == Run(Parser(c, Surface([], name)), rest, at + 1, num)
  {
    var lines := [TexturePrefix + name] + rest;
    assert lines[0] == TexturePrefix + name && lines[1..] == rest;
    ReadTextureLine(name, num);
    RunStep(Parser(c, EmptySurface), lines, at, num);
  }

  /** Reading a blank line closes the pending surface. */
  lemma RunBlankLine(st: Parser, more: seq<string>, at: nat, num: NumText)
    ensures Run(st, [""] + more, at, num) == Run(Parser(Close(st), EmptySurface), more, at + 1, num)
  {
    var lines := [""] + more;
    assert lines[0] == "" && lines[1..] == more;
    RunStep(st, lines, at, num);
  }

  lemma CloseArchived(c: seq<Surface>, s: Surface)
    ensures Close(Parser(c, Surface(s.points, BaseName(s.texture)))) == c + Archived([s])
  {
    assert [s][1..] == [];
    assert Archived([s]) == (if |s.points| > 0 then [ForArchive(s)] else []) + Archived([s][1..]);
  }

  lemma RunSurfaceLines(c: seq<Surface>, s: Surface, more: seq<string>, at: nat, num: NumText)
    requires PointsRoundTrip(num, s.points)
    ensures Run(Parser(c, EmptySurface), SurfaceLines(s, num) + more, at, num)
         == Run(Parser(c + Archived([s]), EmptySurface), more, at + |s.points| + 2, num)
  {
    var name := BaseName(s.texture);
    var blank := [""] + more;
    var points := PointLines(s.points, num);
    SurfaceLinesMore(s, more, num);
    assert [] + s.points == s.points;
    calc {
      Run(Parser(c, EmptySurface), [TexturePrefix + name] + (points + blank), at, num);
      { RunTextureLine(c, name, points + blank, at, num); }
      Run(Parser(c, Surface([], name)), points + blank, at + 1, num);
      { RunPointLines(c, [], name, s.points, blank, at + 1, num); }
      Run(Parser(c, Surface(s.points, name)), [""] + more, at + 1 + |s.points|, num);
      { RunBlankLine(Parser(c, Surface(s.points, name)), more, at + 1 + |s.points|, num); }
      Run(Parser(Close(Parser(c, Surface(s.points, name))), EmptySurface), more, at + 1 + |s.points| + 1, num);
      { CloseArchived(c, s); }
      Run(Parser(c + Archived([s]), EmptySurface), more, at + |s.points| + 2, num);
    }
  }

  lemma SurfaceLinesMore(s: Surface, more: seq<string>, num: NumText)
    ensures SurfaceLines(s, num) + more
         == [TexturePrefix + BaseName(s.texture)] + (PointLines(s.points, num) + ([""] + more))
  {
    var head := [TexturePrefix + BaseName(s.texture)];
    var points := PointLines(s.points, num);
    ConcatAssoc(head + points, [""], more);
    ConcatAssoc(head, points, [""] + more);
  }

  lemma {:induction false} RunSerialise(c: seq<Surface>, ss: seq<Surface>, at: nat, num: NumText)
    requires SurfacesRoundTrip(num, ss)
    ensures Run(Parser(c, EmptySurface), Serialise(ss, num), at, num) == Success(c + Archived(ss))
    decreases |ss|
  {
    if |ss| == 0 {
      AppendEmpty(c);
    } else {
      var c' := c + Archived([ss[0]]);
      var at' := at + |ss[0].points| + 2;
      var rest := Serialise(ss[1..], num);
      assert Serialise(ss, num) == SurfaceLines(ss[0], num) + rest;
      SurfacesRoundTripCons(num, ss);
      RunSurfaceLines(c, ss[0], rest, at, num);
      RunSerialise(c', ss[1..], at', num);
      ArchivedCons(ss);
      ConcatAssoc(c, Archived([ss[0]]), Archived(ss[1..]));
    }
  }

  lemma ArchivedCons(ss: seq<Surface>)
    requires |ss| > 0
    ensures Archived(ss) == Archived([ss[0]]) + Archived(ss[1..])
  {
    assert [ss[0]][1..] == [];
  }

  /** Reading what was written gives back the surfaces that have points, in
      order, with each texture replaced by its file name. */
  lemma RoundTrip(ss: seq<Surface>, num: NumText)
    requires SurfacesRoundTrip(num, ss)
    ensures Parse(Serialise(ss, num), num) == Success(Archived(ss))
  {
    RunSerialise([], ss, 0, num);
    assert [] + Archived(ss) == Archived(ss);
  }

  // ---------------------------------------------------------------------------
  // Reference reading: the file as blank-line separated blocks

  /** The number of blank lines. */
  function BlankCount(lines: seq<string>): nat
    decreases |lines|
  {
    if |lines| == 0 then 0 else (if lines[0] == "" then 1 else 0) + BlankCount(lines[1..])
  }

  /** Blocks joined back with one blank line between each two. */
  function JoinBlocks(bs: seq<seq<string>>): seq<string>
    requires |bs| >= 1
    decreases |bs|
  {
    if |bs| == 1 then bs[0] else bs[0] + [""] + JoinBlocks(bs[1..])
  }

  /** The lines split at blank lines: one block more than there are blank
      lines, none of them holding a blank line. */
  function Blocks(lines: seq<string>): (bs: seq<seq<string>>)
    ensures |bs| == 1 + BlankCount(lines)
    ensures forall k, j :: 0 <= k < |bs| && 0 <= j < |bs[k]| ==> bs[k][j] != ""
    decreases |lines|
  {
    if |lines| == 0 then [[]]
    else
      var rest := Blocks(lines[1..]);
      if lines[0] == "" then [[]] + rest
      else [[lines[0]] + rest[0]] + rest[1..]
  }

  /** Joining the blocks with blank lines gives back the lines. */
  lemma {:induction false} JoinBlocksOfBlocks(lines: seq<string>)
    ensures JoinBlocks(Blocks(lines)) == lines
    decreases |lines|
  {
    if |lines| > 0 {
      var bs := Blocks(lines);
      var rest := Blocks(lines[1..]);
      JoinBlocksOfBlocks(lines[1..]);
      if lines[0] == "" {
        assert bs[0] == [] && bs[1..] == rest;
        assert lines == [] + [""] + lines[1..];
      } else if |rest| == 1 {
        assert bs == [[lines[0]] + rest[0]];
        assert lines == [lines[0]] + lines[1..];
      } else {
        assert bs == [[lines[0]] + rest[0]] + rest[1..];
        JoinBlocksCons(lines[0], rest);
        assert lines == [lines[0]] + lines[1..];
      }
    }
  }

  /** A line put in front of the first block is put in front of the join. */
  lemma JoinBlocksCons(x: string, bs: seq<seq<string>>)
    requires |bs| >= 2
    ensures JoinBlocks([[x] + bs[0]] + bs[1..]) == [x] + JoinBlocks(bs)
  {
    var cs := [[x] + bs[0]] + bs[1..];
    var tail := [""] + JoinBlocks(bs[1..]);
    assert cs[0] == [x] + bs[0] && cs[1..] == bs[1..];
    assert JoinBlocks(cs) == [x] + bs[0] + tail;
    ConcatAssoc([x], bs[0], tail);
    ConcatAssoc(bs[0], [""], JoinBlocks(bs[1..]));
  }

  /** A block without blank lines, followed by a blank line, is the first
      block of what it starts. */
  lemma {:induction false} BlocksOfBlock(b: seq<string>, more: seq<string>)
    requires forall j :: 0 <= j < |b| ==> b[j] != ""
    ensures Blocks(b + [""] + more) == [b] + Blocks(more)
    decreases |b|
  {
    var lines := b + [""] + more;
    if |b| == 0 {
      assert lines == [""] + more;
      assert lines[1..] == more;
    } else {
      assert lines[0] == b[0] && lines[1..] == b[1..] + [""] + more;
      BlocksOfBlock(b[1..], more);
      assert [b[0]] + b[1..] == b;
    }
  }

  /** A block without blank lines is its own only block. */
  lemma {:induction false} BlocksOfLast(b: seq<string>)
    requires forall j :: 0 <= j < |b| ==> b[j] != ""
    ensures Blocks(b) == [b]
    decreases |b|
  {
    if |b| > 0 {
      BlocksOfLast(b[1..]);
      assert [b[0]] + b[1..] == b;
    }
  }

  /** Splitting blocks joined with blank lines gives back the blocks, when no
      block holds a blank line. */
  lemma {:induction false} BlocksOfJoin(bs: seq<seq<string>>)
    requires |bs| >= 1
    requires forall k, j :: 0 <= k < |bs| && 0 <= j < |bs[k]| ==> bs[k][j] != ""
    ensures Blocks(JoinBlocks(bs)) == bs
    decreases |bs|
  {
    assert forall j :: 0 <= j < |bs[0]| ==> bs[0][j] != "";
    if |bs| == 1 {
      BlocksOfLast(bs[0]);
    } else {
      BlocksOfJoin(bs[1..]);
      BlocksOfBlock(bs[0], JoinBlocks(bs[1..]));
      assert [bs[0]] + bs[1..] == bs;
    }
  }

  /** The points of a block's vertex lines, in order. */
  function PointsOf(block: seq<string>, num: NumText): seq<Point>
    decreases |block|
  {
    if |block| == 0 then []
    else
      (match Classify(block[0], num) case VertexLine(p) => [p] case _ => [])
      + PointsOf(block[1..], num)
  }

  /** The name on a block's last texture line, or dflt if it has none. */
  function TextureOf(block: seq<string>, dflt: string, num: NumText): string
    decreases |block|
  {
    if |block| == 0 then dflt
    else
      match Classify(block[|block| - 1], num)
      case TextureLine(t) => t
      case _ => TextureOf(block[..|block| - 1], dflt, num)
  }

  /** The surface a block describes on its own. */
  function SurfaceOf(block: seq<string>, num: NumText): Surface {
    Surface(PointsOf(block, num), TextureOf(block, "", num))
  }

  function SurfacesOf(bs: seq<seq<string>>, num: NumText): seq<Surface>
    decreases |bs|
  {
    if |bs| == 0 then [] else [SurfaceOf(bs[0], num)] + SurfacesOf(bs[1..], num)
  }

  function WithPoints(ss: seq<Surface>): seq<Surface>
    decreases |ss|
  {
    if |ss| == 0 then [] else (if |ss[0].points| > 0 then [ss[0]] else []) + WithPoints(ss[1..])
  }

  /** A pending surface continued by the lines of a block. */
  function Extend(p: Surface, block: seq<string>, num: NumText): Surface {
    Surface(p.points + PointsOf(block, num), TextureOf(block, p.texture, num))
  }

  lemma WithPointsCons(s: Surface, ss: seq<Surface>)
    ensures WithPoints([s] + ss) == WithPoints([s]) + WithPoints(ss)
  {
    assert ([s] + ss)[1..] == ss;
    assert [s][1..] == [];
  }

  lemma {:induction false} TextureOfCons(l: string, b: seq<string>, dflt: string, num: NumText)
    ensures TextureOf([l] + b, dflt, num)
         == TextureOf(b, match Classify(l, num) case TextureLine(t) => t case _ => dflt, num)
    decreases |b|
  {
    var lb := [l] + b;
    if |b| == 0 {
      assert lb[..0] == [];
    } else {
      assert lb[|lb| - 1] == b[|b| - 1];
      assert lb[..|lb| - 1] == [l] + b[..|b| - 1];
      TextureOfCons(l, b[..|b| - 1], dflt, num);
    }
  }

  lemma ExtendCons(c: seq<Surface>, p: Surface, l: string, b: seq<string>, num: NumText)
    requires l != "" && l != "v"
    ensures
      var k := Classify(l, num);
      !k.BareV? && !k.Blank? &&
      Extend(p, [l] + b, num) == Extend(Feed(Parser(c, p), k).pending, b, num)
  {
    var k := Classify(l, num);
    ClassifyBareV(l, num);
    assert ([l] + b)[1..] == b;
    TextureOfCons(l, b, p.texture, num);
    match k
    case VertexLine(q) =>
      assert p.points + PointsOf([l] + b, num) == p.points + [q] + PointsOf(b, num);
    case _ =>
  }

  lemma ExtendNothing(p: Surface, num: NumText)
    ensures Extend(p, [], num) == p
  {
    assert p.points + [] == p.points;
  }

  lemma ExtendFresh(b: seq<string>, num: NumText)
    ensures Extend(EmptySurface, b, num) == SurfaceOf(b, num)
  {
    assert [] + PointsOf(b, num) == PointsOf(b, num);
  }

  lemma CloseWithPoints(c: seq<Surface>, p: Surface)
    ensures Close(Parser(c, p)) == c + WithPoints([p])
  {
    assert [p][1..] == [];
  }

  /** The sequence algebra of closing a surface at a blank line. */
  lemma BlankAlgebra(c: seq<Surface>, p: Surface, bs: seq<seq<string>>, num: NumText)
    requires |bs| >= 1
    ensures Close(Parser(c, p)) + WithPoints([Extend(EmptySurface, bs[0], num)] + SurfacesOf(bs[1..], num))
         == c + WithPoints([Extend(p, [], num)] + SurfacesOf(bs, num))
  {
    var rest := SurfacesOf(bs, num);
    calc {
      Close(Parser(c, p)) + WithPoints([Extend(EmptySurface, bs[0], num)] + SurfacesOf(bs[1..], num));
      { CloseWithPoints(c, p); ExtendFresh(bs[0], num); }
      c + WithPoints([p]) + WithPoints([SurfaceOf(bs[0], num)] + SurfacesOf(bs[1..], num));
      c + WithPoints([p]) + WithPoints(rest);
      { WithPointsCons(p, rest); }
      c + WithPoints([p] + rest);
      { ExtendNothing(p, num); }
      c + WithPoints([Extend(p, [], num)] + rest);
    }
  }

  lemma {:induction false} RunByBlocks(st: Parser, lines: seq<string>, at: nat, num: NumText)
    requires NoBareV(lines)
    ensures
      var bs := Blocks(lines);
      Run(st, lines, at, num)
        == Success(st.committed + WithPoints([Extend(st.pending, bs[0], num)] + SurfacesOf(bs[1..], num)))
    decreases |lines|
  {
    var bs := Blocks(lines);
    var p := st.pending;
    if |lines| == 0 {
      assert Extend(p, [], num) == p;
      assert WithPoints([p]) == Close(st)[|st.committed|..];
      assert Close(st) == st.committed + WithPoints([p]);
    } else {
      var rest := lines[1..];
      var bs' := Blocks(rest);
      var k := Classify(lines[0], num);
      RunStep(st, lines, at, num);
      assert NoBareV(rest);
      RunByBlocks(Feed(st, k), rest, at + 1, num);
      var tail := SurfacesOf(bs'[1..], num);
      if lines[0] == "" {
        assert k == Blank;
        assert bs[0] == [] && bs[1..] == bs';
        BlankAlgebra(st.committed, p, bs', num);
      } else {
        assert bs[0] == [lines[0]] + bs'[0] && bs[1..] == bs'[1..];
        ExtendCons(st.committed, p, lines[0], bs'[0], num);
      }
    }
  }

  /** The parser agrees with the block reading: the surfaces of the blank-line
      separated blocks, in order, those without points dropped. */
  lemma ParseByBlocks(lines: seq<string>, num: NumText)
    requires NoBareV(lines)
    ensures Parse(lines, num) == Success(WithPoints(SurfacesOf(Blocks(lines), num)))
  {
    var bs := Blocks(lines);
    RunByBlocks(Start, lines, 0, num);
    assert [] + PointsOf(bs[0], num) == PointsOf(bs[0], num);
    assert Extend(EmptySurface, bs[0], num) == SurfaceOf(bs[0], num);
    assert SurfacesOf(bs, num) == [SurfaceOf(bs[0], num)] + SurfacesOf(bs[1..], num);
    var w := WithPoints(SurfacesOf(bs, num));
    assert Start.committed + w == w;
    assert Parse(lines, num) == Run(Start, lines, 0, num);
  }
}

=== FILE: model.dfy ===
/** The in-memory textured mesh: points, surfaces and the Objx object with its
    archive location. Single-precision floats are modelled as exact reals. */
module Model {

  /** A vertex: position x, y, z and texture coordinates u, v. */
  datatype Point = Point(x: real, y: real, z: real, u: real, v: real)

  /** An ordered point sequence, each consecutive three forming one triangle,
      and one texture reference: a path of any form until the object is saved,
      a bare file name inside an archive. */
  datatype Surface = Surface(points: seq<Point>, texture: string)

  /** An object: its surfaces and its location, the empty string meaning that
      it has never been saved. */
  datatype Objx = Objx(surfaces: seq<Surface>, location: string) {
    predicate NeverSaved() {
      location == ""
    }
  }

  const EmptySurface := Surface([], "")

  predicate AllHavePoints(ss: seq<Surface>) {
    forall i :: 0 <= i < |ss| ==> |ss[i].points| > 0
  }

  /** A fresh object: one surface without points or texture, never saved. */
  function NewObjx(): (o: Objx)
    ensures |o.surfaces| == 1
    ensures o.surfaces[0].points == [] && o.surfaces[0].texture == ""
    ensures o.NeverSaved()
  {
    Objx([EmptySurface], "")
  }

  /** Appends a surface after the existing ones; nothing else changes. */
  function AddSurface(o: Objx, s: Surface): (r: Objx)
    ensures |r.surfaces| == |o.surfaces| + 1
    ensures r.surfaces[..|o.surfaces|] == o.surfaces
    ensures r.surfaces[|o.surfaces|] == s
    ensures r.location == o.location
  {
    o.(surfaces := o.surfaces + [s])
  }
}

=== FILE: text.dfy ===
/** Character-level helpers shared by the mesh codec: the white-space separated
    words a C++ input stream reads, the lines `std::getline` extracts from a
    text, and the POSIX path components `std::filesystem::path` computes. */
module Text {

  /** The characters the C locale classifies as white space. */
  predicate IsSpace(c: char) {
    c == ' ' || c == '\t' || c == '\n' || c == '\r' || c == '\U{B}' || c == '\U{C}'
  }

  /** A word: at least one character and no white space. */
  predicate IsWord(s: string) {
    |s| > 0 && forall i :: 0 <= i < |s| ==> !IsSpace(s[i])
  }

  predicate NoNewline(s: string) {
    forall i :: 0 <= i < |s| ==> s[i] != '\n'
  }

  // ---------------------------------------------------------------------------
  // Sequences

  lemma ConcatAssoc<T>(a: seq<T>, b: seq<T>, c: seq<T>)
    ensures a + b + c == a + (b + c)
  {
  }

  lemma PairConcat<T>(a: T, b: T)
    ensures [a] + [b] == [a, b]
  {
  }

  lemma SplitAt<T>(s: seq<T>, n: int)
    requires 0 <= n < |s|
    ensures s == s[..n] + [s[n]] + s[n + 1..]
  {
  }

  lemma AppendEmpty<T>(xs: seq<T>)
    ensures xs + [] == xs
  {
  }

  /** Putting back the head of ys after xs gives xs + ys. */
  lemma AppendCons<T>(xs: seq<T>, ys: seq<T>)
    requires |ys| > 0
    ensures xs + [ys[0]] + ys[1..] == xs + ys
  {
    assert [ys[0]] + ys[1..] == ys;
  }

  // ---------------------------------------------------------------------------
  // Words

  /** Length of the leading run of characters that are not white space. */
  function WordLength(s: string): (n: nat)
    ensures n <= |s|
    ensures forall i :: 0 <= i < n ==> !IsSpace(s[i])
    ensures n < |s| ==> IsSpace(s[n])
  {
    if s == [] || IsSpace(s[0]) then 0 else 1 + WordLength(s[1..])
  }

  /** The words of s in order, as successive `>>` extractions skip white space
      and then read up to the next white space. */
  function Words(s: string): (ws: seq<string>)
    ensures forall k :: 0 <= k < |ws| ==> IsWord(ws[k])
    decreases |s|
  {
    if s == [] then []
    else if IsSpace(s[0]) then Words(s[1..])
    else
      var n := WordLength(s);
      [s[..n]] + Words(s[n..])
  }

  /** Words separated by single spaces, as `out << a << " " << b` writes them. */
  function Unwords(ws: seq<string>): string
    decreases |ws|
  {
    if |ws| == 0 then ""
    else if |ws| == 1 then ws[0]
    else ws[0] + " " + Unwords(ws[1..])
  }

  lemma {:induction false} WordLengthOfWord(w: string, rest: string)
    requires forall i :: 0 <= i < |w| ==> !IsSpace(w[i])
    requires rest == [] || IsSpace(rest[0])
    ensures WordLength(w + rest) == |w|
  {
    if w != [] {
      assert (w + rest)[1..] == w[1..] + rest;
      WordLengthOfWord(w[1..], rest);
    } else {
      assert w + rest == rest;
    }
  }

  /** A word followed by nothing or by white space is read whole. */
  lemma WordsOfWord(w: string, rest: string)
    requires IsWord(w)
    requires rest == [] || IsSpace(rest[0])
    ensures Words(w + rest) == [w] + Words(rest)
  {
    var s := w + rest;
    WordLengthOfWord(w, rest);
    assert s[..|w|] == w;
    assert s[|w|..] == rest;
  }

  /** Reading back words written with single spaces between them gives the same words. */
  lemma {:induction false} WordsUnwords(ws: seq<string>)
    requires forall k :: 0 <= k < |ws| ==> IsWord(ws[k])
    ensures Words(Unwords(ws)) == ws
  {
    if |ws| == 1 {
      WordsOfWord(ws[0], "");
      assert ws[0] + "" == ws[0];
    } else if |ws| > 1 {
      var tail := Unwords(ws[1..]);
      WordsOfWord(ws[0], " " + tail);
      assert ws[0] + " " + tail == ws[0] + (" " + tail);
      assert (" " + tail)[1..] == tail;
      WordsUnwords(ws[1..]);
    }
  }

  /** Words joined by spaces never contain a line break. */
  lemma {:induction false} UnwordsNoNewline(ws: seq<string>)
    requires forall k :: 0 <= k < |ws| ==> IsWord(ws[k])
    ensures NoNewline(Unwords(ws))
  {
    if |ws| > 1 {
      UnwordsNoNewline(ws[1..]);
      var s := Unwords(ws);
      assert s == ws[0] + " " + Unwords(ws[1..]);
      forall i | 0 <= i < |s| ensures s[i] != '\n' {
        if i < |ws[0]| {
          assert s[i] == ws[0][i];
        } else if i > |ws[0]| {
          assert s[i] == Unwords(ws[1..])[i - |ws[0]| - 1];
        }
      }
    }
  }

  // ---------------------------------------------------------------------------
  // Lines

  /** Length of the leading run of characters before the first line break. */
  function LineLength(s: string): (n: nat)
    ensures n <= |s|
    ensures forall i :: 0 <= i < n ==> s[i] != '\n'
    ensures n < |s| ==> s[n] == '\n'
  {
    if s == [] || s[0] == '\n' then 0 else 1 + LineLength(s[1..])
  }

  /** The lines successive `std::getline` calls extract from s: each line break
      ends a line and is dropped; a last line without a break is still read;
      reading stops, without an extra empty line, once the text is used up. */
  function Lines(s: string): (ls: seq<string>)
    ensures forall k :: 0 <= k < |ls| ==> NoNewline(ls[k])
    decreases |s|
  {
    if s == [] then []
    else
      var n := LineLength(s);
      if n == |s| then [s] else [s[..n]] + Lines(s[n + 1..])
  }

  /** Lines each followed by a line break, as a text stream writes them. */
  function Unlines(ls: seq<string>): string
    decreases |ls|
  {
    if |ls| == 0 then "" else ls[0] + "\n" + Unlines(ls[1..])
  }

  lemma {:induction false} LineLengthOfLine(l: string, rest: string)
    requires NoNewline(l)
    ensures LineLength(l + "\n" + rest) == |l|
  {
    if l != [] {
      assert (l + "\n" + rest)[1..] == l[1..] + "\n" + rest;
      LineLengthOfLine(l[1..], rest);
    } else {
      assert (l + "\n" + rest)[0] == '\n';
    }
  }

  /** Reading back lines that hold no line break gives the same lines. */
  lemma {:induction false} LinesUnlines(ls: seq<string>)
    requires forall k :: 0 <= k < |ls| ==> NoNewline(ls[k])
    ensures Lines(Unlines(ls)) == ls
  {
    if |ls| > 0 {
      var tail := Unlines(ls[1..]);
      var s := Unlines(ls);
      assert s == ls[0] + "\n" + tail;
      LineLengthOfLine(ls[0], tail);
      assert s[..|ls[0]|] == ls[0];
      assert s[|ls[0]| + 1..] == tail;
      LinesUnlines(ls[1..]);
    }
  }

  /** Conversely, a text that is empty or ends in a line break is rebuilt
      exactly from its lines. */
  lemma {:induction false} UnlinesLines(s: string)
    requires s == [] || s[|s| - 1] == '\n'
    ensures Unlines(Lines(s)) == s
    decreases |s|
  {
    if s != [] {
      var n := LineLength(s);
      assert n < |s|;
      var tail := s[n + 1..];
      assert tail == [] || tail[|tail| - 1] == '\n';
      UnlinesLines(tail);
      assert Lines(s) == [s[..n]] + Lines(tail);
      UnlinesCons(s[..n], Lines(tail));
      SplitAt(s, n);
    }
  }

  lemma UnlinesCons(l: string, ls: seq<string>)
    ensures Unlines([l] + ls) == l + "\n" + Unlines(ls)
  {
    assert ([l] + ls)[0] == l && ([l] + ls)[1..] == ls;
  }

  // ---------------------------------------------------------------------------
  // POSIX paths

  /** A path without separators: a bare file name. */
  predicate NoSlash(p: string) {
    forall i :: 0 <= i < |p| ==> p[i] != '/'
  }

  /** The file-name component, `path::filename()`: the longest suffix without a
      separator (see `BaseNameSuffix`), empty when the path ends in one. */
  function BaseName(p: string): (b: string)
    ensures |b| <= |p|
    ensures NoSlash(b)
  {
    if p == [] then []
    else if p[|p| - 1] == '/' then []
    else BaseName(p[..|p| - 1]) + [p[|p| - 1]]
  }

  /** The file name is a suffix of the path, preceded by a separator when it
      is not the whole path. */
  lemma {:induction false} BaseNameSuffix(p: string)
    ensures BaseName(p) == p[|p| - |BaseName(p)|..]
    ensures |BaseName(p)| < |p| ==> p[|p| - |BaseName(p)| - 1] == '/'
  {
    if p != [] && p[|p| - 1] != '/' {
      var q := p[..|p| - 1];
      BaseNameSuffix(q);
      assert p[|p| - |BaseName(p)|..] == q[|q| - |BaseName(q)|..] + [p[|p| - 1]];
    }
  }

  /** The file name of a path without separators is the path itself. */
  lemma {:induction false} BaseNameOfBare(p: string)
    requires NoSlash(p)
    ensures BaseName(p) == p
  {
    if p != [] {
      BaseNameOfBare(p[..|p| - 1]);
      assert p[..|p| - 1] + [p[|p| - 1]] == p;
    }
  }

  predicate IsAbsolute(p: string) {
    |p| > 0 && p[0] == '/'
  }

  /** `path::parent_path()` is non-empty exactly when the path holds a separator. */
  predicate HasParentPath(p: string) {
    exists i :: 0 <= i < |p| && p[i] == '/'
  }

  /** A path that names a file outside the current directory. */
  predicate IsExternal(p: string) {
    IsAbsolute(p) || HasParentPath(p)
  }

  /** A path is external exactly when it is not already a bare file name. */
  lemma ExternalIffNotBare(p: string)
    ensures IsExternal(p) <==> BaseName(p) != p
  {
    BaseNameSuffix(p);
    if IsExternal(p) {
      var i :| 0 <= i < |p| && p[i] == '/';
      assert BaseName(p) != p;
    }
  }
}

=== FILE: wrappers.dfy ===
/** Failure-carrying values used across the model: an optional value, and a
    result that is either a value or an error. */
module Wrappers {

  datatype Option<+T> = None | Some(value: T)

  datatype Result<+T, +E> = Success(value: T) | Failure(error: E)
}
